=== FILE: README.md ===
# Verified model of the email-client backend's pure logic

This project models, in Dafny, the three pieces of deterministic logic in the
AI email client backend:

- **The evaluation scorer** (`agents/eval/run_eval.py`):
  - `word_count`;
  - `validate_schema`, which checks the AI-insight record an email agent returns;
  - `judge`, which turns a case's expectations and an agent result into named pass/fail checks and a score.
- **The deploy script's bookkeeping** (`agents/upsert_runtime.py`):
  - `_scrub_yaml_ids`, which normalises the agent name in the toolkit config and drops cached runtime identifiers;
  - the READY/terminal-status decision that ends the script.
- **The e-mail processor's item derivation** (`lambda/email-processor/index.py`). For one S3 record, it derives:
  - the plain and HTML bodies;
  - the attachment entries and their storage keys;
  - the table item keyed by `USER#<recipient>` and `EMAIL#<Message-ID>`.

Python values are modelled explicitly (`PyValue`):
- JSON/YAML data is a `Json` datatype.
- An exception Python would raise is an `Outcome.Raised(TypeError | AttributeError)` result, not a precondition. For example:
  - `x in some_set` on a list raises TypeError;
  - `.get` on a non-dict raises AttributeError;
  - `.lower()` on a non-string raises AttributeError.
- Truthiness (`x or ""`) follows Python.
- `PyValue.AsSet` is `set(list)`.
- `PyValue.InStrSet` is `v in set_of_strings`: a list or dict raises TypeError, and only a string can be a member.
- `PyValue.Get` is `v.get(key, default)`: only a dict has `get`, so anything else raises AttributeError.
- `EvalJudge.Contains` is `needle in e`: a substring for a string, an element for a list, a key for a dict, TypeError otherwise.
- `EvalJudge.Chars` gives the one-character strings that iterating a string yields.

`PyText` models the string operations the code uses:
- `split()` with Python's whitespace set;
- substring `in`;
- ASCII `lower()` (`PyText.Lower`);
- `strip(chars)`.

Modules and files:
- `py_value.dfy` (`PyValue`): values, outcomes, `in` on sets, `dict.get`.
- `py_text.dfy` (`PyText`): `split`/word count, substring, `lower`, `strip`.
- `eval_schema.dfy` (`EvalSchema`): `validate_schema`, corrected and as written.
- `eval_judge.dfy` (`EvalJudge`): `judge` and its checks.
- `toolkit_config.dfy` (`ToolkitConfig`): `_scrub_yaml_ids`.
- `runtime_status.dfy` (`RuntimeStatus`): polling to a terminal status and the exit decision.
- `email_item.dfy` (`EmailItem`): the per-record derivation of `lambda_handler`.

## Model

| member | source | states |
|---|---|---|
| `PyText.Words` | agents/eval/run_eval.py:40 | every token of `split()` is non-empty and free of whitespace, so the `if w.strip()` filter drops nothing |
| `PyText.WordCount` | agents/eval/run_eval.py:39-40 | the word count is the number of `split()` tokens |
| `PyText.WordCountZeroIffBlank` | agents/eval/run_eval.py:39-40 | the count is 0 exactly for the empty or all-whitespace string |
| `PyText.LowerIdempotent` | agents/eval/run_eval.py:127 | lowering twice equals lowering once |
| `PyText.SubstringOfEmpty` | agents/eval/run_eval.py:127 | only `""` is found in `""`, so a falsy action item matches only the empty substring |
| `PyText.Strip` | lambda/email-processor/index.py:174 | `strip('<>')` removes characters in the set from both ends only: the result is a contiguous middle of the input, everything removed is in the set, and the result neither starts nor ends with a set character |
| `PyText.StripKeepsClean` | lambda/email-processor/index.py:174 | a Message-ID without brackets at its ends is kept unchanged |
| `PyText.StripIdempotent` | lambda/email-processor/index.py:155 | stripping an already stripped id changes nothing |
| `EvalSchema.ValidateSchema` | agents/eval/run_eval.py:42-73 | the corrected validator; `ok` is true exactly when the error list is empty |
| `EvalSchema.SchemaOkIffConforms` | agents/eval/run_eval.py:42-73 | `ok` holds exactly when all ten keys are present with the right types and `category`/`sentiment` are allowed strings |
| `EvalSchema.MissingSpec` | agents/eval/run_eval.py:49-50 | the missing list holds exactly the absent required keys, in `req` order |
| `EvalSchema.MissingErrorSpec` | agents/eval/run_eval.py:50-52 | there is at most one "Missing keys" error; it exists exactly when some required key is absent, and it lists the missing keys |
| `EvalSchema.MissingKeysReportedOnce` | agents/eval/run_eval.py:49-52 | with a key absent, the first error is the single "Missing keys" error, and no other error is one |
| `EvalSchema.TypeErrorsSpec` | agents/eval/run_eval.py:55-65 | a field gets a type error exactly when it is present with the wrong `str`/`bool`/`list` type |
| `EvalSchema.NoTypeErrorsIff` | agents/eval/run_eval.py:55-65 | there are no type errors exactly when every present field has its type |
| `EvalSchema.EnumErrorsSpec` | agents/eval/run_eval.py:67-71 | `category`/`sentiment` get an enum error exactly when present and not one of the 9 (resp. 4) allowed strings |
| `EvalSchema.NoEnumErrorsIff` | agents/eval/run_eval.py:68-71 | there are no enum errors exactly when each present enumerated value is allowed |
| `EvalSchema.ChecksFireOnlyWhenPresent` | agents/eval/run_eval.py:55-71 | over the whole report, type and enum errors fire only for present keys, and exactly when their checks fail |
| `EvalSchema.AllFieldsListed` | agents/eval/run_eval.py:49 | the required list names every field |
| `EvalSchema.NothingMissing` | agents/eval/run_eval.py:50 | when no key of the list is present, all of them are missing, in order |
| `EvalSchema.EmptyRecordOneError` | agents/eval/run_eval.py:49-71 | the empty object gets exactly one error, the "Missing keys" error listing all ten keys in order |
| `EvalSchema.EnumErrorAsWritten` | agents/eval/run_eval.py:68-71 | the enum check as written raises TypeError exactly for a present list or dict, and otherwise equals the corrected check |
| `EvalSchema.ValidateSchemaAsWritten` | agents/eval/run_eval.py:42-73 | the validator as written raises TypeError exactly when `category` or `sentiment` is a present list or dict; otherwise it equals the corrected validator |
| `EvalSchema.AsWrittenRaisesOnListCategory` | agents/eval/run_eval.py:68-69 | a list `category` crashes the validator as written, while the corrected one reports it as a wrong type and as outside the set |
| `EvalJudge.ItemHas` | agents/eval/run_eval.py:127 | `sub.lower() in (ai or "").lower()`: a case-insensitive substring test on a string; a falsy item matches only `""`; a truthy non-string raises AttributeError |
| `EvalJudge.AnyContainsOverContainers` | agents/eval/run_eval.py:119 | over strings, lists and dicts, the short-circuit `any` never raises and is true exactly when some element contains the needle |
| `EvalJudge.AnyContainsMissScansAll` | agents/eval/run_eval.py:119 | an `any` that ends without a match looked only into containers |
| `EvalJudge.EntityMissMeansNoRaise` | agents/eval/run_eval.py:119 | if one needle's search ends without a match, no needle's search can raise |
| `EvalJudge.EntitiesOrderFree` | agents/eval/run_eval.py:116-119 | the short-circuit `all`/`any` entity check equals an order-free reference over the set of needles: it raises when some needle's search raises, and otherwise is true when every needle is found |
| `EvalJudge.EntitiesSameSetSameOutcome` | agents/eval/run_eval.py:118-119 | any two orders of the same needles give the same result, so Python's unspecified set order does not matter |
| `EvalJudge.ActionItemsIgnoreCase` | agents/eval/run_eval.py:124-127 | for string action items, lowering the substrings and the items does not change the check: it is case-insensitive |
| `EvalJudge.EntitiesAreCaseSensitive` | agents/eval/run_eval.py:119-127 | needle `a` is not found in entity `A`, yet substring `a` is found in action item `A` |
| `EvalJudge.SummaryOk` | agents/eval/run_eval.py:96-100 | the summary check passes exactly for a dict result whose `summary` is a string of at most `max_words` split tokens |
| `EvalJudge.ExpectedIn` | agents/eval/run_eval.py:103-112 | category/sentiment check: always passes without a narrowing set; otherwise it raises AttributeError on a non-dict result and TypeError on an unhashable value, and passes exactly when the value is an allowed string |
| `EvalJudge.EntitiesOk` | agents/eval/run_eval.py:115-120 | the entity check passes without `must_have_entities`, and raises AttributeError on a non-dict result when it is given; for a dict result, `EvalJudge.EntitiesOkMeaning` states the outcome |
| `EvalJudge.EntitiesOkMeaning` | agents/eval/run_eval.py:116-119 | on a dict result, the entity check equals the order-free reference over the set of needles and `result.get("entities", [])`: it raises TypeError when some needle's search raises, and otherwise passes exactly when every needle is found |
| `EvalJudge.ActionItemsOk` | agents/eval/run_eval.py:123-128 | the action-item check passes without `must_have_action_items_substr`, and raises AttributeError on a non-dict result when it is given; for a dict result with string items, `EvalJudge.ActionItemsOkMeaning` states the outcome |
| `EvalJudge.AnyItemHasOverStrings` | agents/eval/run_eval.py:127 | over string items, the short-circuit `any` never raises and is true exactly when some item contains the substring, ignoring case |
| `EvalJudge.ActionItemsOverStrings` | agents/eval/run_eval.py:127 | over string items, the `all`/`any` check is true exactly when every substring occurs, ignoring case, in some item |
| `EvalJudge.ActionItemsOkMeaning` | agents/eval/run_eval.py:124-127 | on a dict result whose `action_items` is absent or a list of strings, the check never raises and passes exactly when every required substring occurs, ignoring case, in some item |
| `EvalJudge.SmartReplyOk` | agents/eval/run_eval.py:131-134 | when required, the check passes exactly when `smart_reply` is a non-empty string; a non-dict result raises AttributeError |
| `EvalJudge.AllowedErrorCheck` | agents/eval/run_eval.py:82-89 | one `allowed_error` check, which passes exactly when the error value is one of the allowed codes; a list or dict error value, and only such a value, raises TypeError |
| `EvalJudge.SevenCheckVerdict` | agents/eval/run_eval.py:91-134 | seven checks named schema, summary, category, sentiment, entities, action items and smart reply, in that order. Each carries the outcome of its own check: the corrected schema validation of the result (or `{}`), the summary word limit (default 60), and the category, sentiment, entity, action-item and smart-reply checks. Scoring raises exactly when one of the last five checks raises |
| `EvalJudge.Judge` | agents/eval/run_eval.py:75-140 | a scored result has one check exactly in the allowed-error branch, and seven otherwise; which of the seven pass is stated by `EvalJudge.ScoredChecksMean` and `EvalJudge.ScoredSearchChecksMean` |
| `EvalJudge.PassedAppend` | agents/eval/run_eval.py:136-137 | the pass count is the number of passing checks: one check counts 1 exactly when it passed, and the count over a concatenation is the sum of the counts |
| `EvalJudge.PassedAtMostTotal` | agents/eval/run_eval.py:137-138 | passed is at most total, and equals it exactly when every check is ok |
| `EvalJudge.ScoreBounded` | agents/eval/run_eval.py:136-139 | total is positive and 0 <= passed/total <= 1, with 1 exactly when all checks pass |
| `EvalJudge.AllowedErrorScored` | agents/eval/run_eval.py:81-89 | with `allow_error_codes` and an `error` key, the verdict is the single check `(allowed_error, error in codes)`; an unhashable error, and only such an error, raises TypeError |
| `EvalJudge.ScoredChecksMean` | agents/eval/run_eval.py:91-134 | in a scored verdict, stated in terms of the result alone: the schema check passes exactly when the record conforms; the summary check passes exactly for a dict whose string `summary` has at most `max_words` words; a requested category or sentiment check passes exactly when the value is one of the expected strings; a required smart reply passes exactly when it is a non-empty string |
| `EvalJudge.ScoredSearchChecksMean` | agents/eval/run_eval.py:114-128 | in a scored verdict, a requested entity check passes exactly when every needle is found in `entities`; for string action items, a requested action-item check passes exactly when every substring occurs, ignoring case, in some item |
| `EvalJudge.UnrequestedCheckPasses` | agents/eval/run_eval.py:103-134 | in a scored seven-check verdict, each of checks 3 to 7 passes when its own expectation is absent, whatever the other expectations and the result are |
| `EvalJudge.OptionalChecksVacuous` | agents/eval/run_eval.py:81-134 | with no allowed-error codes and no optional expectation at all, scoring never raises, and checks 3 to 7 pass for any result |
| `EvalJudge.NonDictRaises` | agents/eval/run_eval.py:105-133 | a non-dict result raises AttributeError as soon as an optional check calls `result.get` |
| `EvalJudge.NonDictFailsSchemaAndSummary` | agents/eval/run_eval.py:92-99 | a non-dict result is validated as `{}`, so its schema and summary checks fail |
| `EvalJudge.JudgeAsWritten` | agents/eval/run_eval.py:92 | with the validator as written, a dict result with a list or dict `category`/`sentiment` makes `judge` raise TypeError |
| `EvalJudge.JudgeAsWrittenAgrees` | agents/eval/run_eval.py:92 | whenever the validator as written does not raise, both judges agree |
| `ToolkitConfig.ScrubIds` | agents/upsert_runtime.py:69-88 | the three name keys hold the desired name; no cached-id key is left; a map `endpoint` loses `arn`/`endpointArn`/`endpoint_arn`/`status`, keeps the rest, and is dropped exactly when nothing is left; a non-map `endpoint` and every other key are unchanged |
| `ToolkitConfig.ScrubIdempotent` | agents/upsert_runtime.py:61-91 | scrubbing a scrubbed map changes nothing |
| `ToolkitConfig.ScrubYaml` | agents/upsert_runtime.py:63-94 | a missing file is left alone; an unloadable file or a truthy non-mapping document fails with nothing written; a mapping is scrubbed |
| `ToolkitConfig.EmptyDocumentGetsNames` | agents/upsert_runtime.py:67-71 | a null or empty document is written as exactly the three name keys set to the desired name |
| `RuntimeStatus.FirstTerminal` | agents/upsert_runtime.py:184-193 | the stopping poll is terminal and every earlier one is not; without one, none of the observed statuses is terminal |
| `RuntimeStatus.FirstTerminalIs` | agents/upsert_runtime.py:186-192 | a terminal status preceded only by non-terminal ones is where polling stops |
| `RuntimeStatus.PollUntilTerminal` | agents/upsert_runtime.py:186-193 | the loop stops exactly at the first status in the terminal set |
| `RuntimeStatus.Conclude` | agents/upsert_runtime.py:167-207 | the exit code is 4 exactly for a missing or empty ARN; otherwise it is 2 exactly when the first terminal status is not READY, and 0 exactly on READY, with the ARN stored exactly when the parameter name is non-empty; there is no exit while no terminal status has been observed |
| `EmailItem.FileName` | lambda/email-processor/index.py:154 | the attachment name is the part's non-empty filename, and `"unknown"` exactly when the filename is missing or empty |
| `EmailItem.Recipient` | lambda/email-processor/index.py:164-165 | the corrected recipient is never empty: the first non-empty parsed To address, or `unknown@example.com` when every parsed address is empty or there is none |
| `EmailItem.RecipientAgreesWithToAddr` | lambda/email-processor/index.py:164-165 | when the first parsed address is non-empty, or there is none, the corrected recipient equals `addrs[0] if addrs else "unknown@example.com"` |
| `EmailItem.BlankAddressDefeatsFallback` | lambda/email-processor/index.py:164-173 | as written, an empty first parsed address becomes the recipient, so `PK` is the bare `USER#`; the corrected recipient never gives that key |
| `EmailItem.FirstBodySpec` | lambda/email-processor/index.py:159-162 | the plain (HTML) body is the first non-empty content among non-attachment `text/plain` (`text/html`) leaf parts, or `""` when all are empty or there are none |
| `EmailItem.AttachmentsOf` | lambda/email-processor/index.py:153-157 | every attachment entry has a non-empty name and the key `attachments/<stripped id>/<name>` |
| `EmailItem.UploadsMatchAttachments` | lambda/email-processor/index.py:155-157 | the i-th uploaded object is stored under the i-th attachment's key |
| `EmailItem.FirstBodySnoc` | lambda/email-processor/index.py:159-162 | once a body is set, later parts do not change it; until then, a candidate part sets it |
| `EmailItem.AttachmentsSnoc` | lambda/email-processor/index.py:153-157 | each attachment part appends one entry and one upload, in walk order |
| `EmailItem.StepAgrees` | lambda/email-processor/index.py:146-162 | one loop iteration keeps the gathered state equal to the reference definitions |
| `EmailItem.WalkParts` | lambda/email-processor/index.py:146-162 | the loop yields the reference bodies, attachments and uploads; without a Message-ID, it raises AttributeError exactly when some part is an attachment |
| `EmailItem.Derive` | lambda/email-processor/index.py:131-177 | the item holds the reference bodies and attachments, `userId` is the corrected recipient, `PK` is `USER#` plus the recipient, `SK` is `EMAIL#` plus the stripped Message-ID, and the header fields are kept; a missing Message-ID raises AttributeError |
| `EmailItem.MultipartIgnored` | lambda/email-processor/index.py:146-148 | inserting a multipart container anywhere in the walk changes neither the bodies nor the attachments nor the uploads |
| `EmailItem.AttachmentNeverBody` | lambda/email-processor/index.py:153-160 | when every leaf of a type is an attachment, the body of that type is empty: disposition beats content type |
| `EmailItem.OneEntryPerAttachment` | lambda/email-processor/index.py:153-157 | there is one entry per attachment part, in walk order, named by that part's file name |
| `EmailItem.OneUploadPerAttachment` | lambda/email-processor/index.py:151-156 | the i-th upload carries the content of the i-th attachment part |
| `EmailItem.AttachmentKeyInjective` | lambda/email-processor/index.py:155-156 | within one message, two attachment keys are equal exactly when the file names are, so a repeated name overwrites the earlier upload |
| `EmailItem.SortKeyStripsBrackets` | lambda/email-processor/index.py:174 | `<x>` and `x` both give `SK = EMAIL#x` when `x` has no brackets at its ends |

## Left out

- The I/O around the modelled logic is not modelled:
  - JSONL loading, HTTP/local invocation, timing and the final report (`main`, `_http_invoke`, `_local_invoke` in run_eval.py);
  - S3 reads and writes, the DynamoDB write, and the agent call with its JSON decoding (index.py);
  - CLI parsing, `Runtime.configure`/`launch`, the ClientError retry path, the YAML file read/write, `time.sleep` and the SSM write (upsert_runtime.py).

  These are calls into services or libraries. Uploads are modelled as the list of `(key, body)` objects the handler would write.
- Message parsing is not modelled. That covers RFC 5322 parsing, the MIME walk (RFC 2045/2046), `getaddresses` and `parseaddr`. The walk's parts, the parsed To addresses and the From `(name, address)` pair are inputs. What the parser returns for a missing or malformed To header is an input. The Findings table covers the case where it returns one empty address.
- A part's content is an opaque value. The model does not distinguish text (`str`) from binary (`bytes`) content. A binary attachment is covered: its content passes through unchanged as the upload body, and its key, entry and upload are derived as for any attachment. Only the bodies' `not out[...]` emptiness test looks at the content, and it is modelled as emptiness of that value.
- WalkParts: assumes every leaf part's content decodes. In the handler, `_get(part)` (index.py:151) can itself raise for a part the `email` package cannot decode (no content handler for its main type, or an unknown charset), and that aborts the record. The model's raise condition (no Message-ID and an attachment) holds only for parts whose content decodes.
- Derive: same domain as WalkParts. It raises exactly when the Message-ID is missing, but only for messages whose every leaf part decodes.
- ScrubIds: covers YAML documents without anchors and aliases only. `yaml.safe_load` makes an alias share the anchored dict, and `ep.pop` (upsert_runtime.py:86) edits in place. So another key aliasing the `endpoint` block would lose the same fields, and the tree model cannot express that sharing.
- `judge`'s float score, `avg_score` and rounding are not modelled. The score is the pair `Passed()`/`Total()` of naturals.
- Check and error messages (the f-strings) are not modelled. Schema errors are structured values that carry the same information.
- Ill-typed expectations are not modelled. The expectation record is typed (`EvalJudge.Expect`): lists of strings, an integer word limit and a boolean flag. Python does not reject the other forms:
  - a string `category_in`, `sentiment_in` or `must_have_entities` is turned by `set(...)` into its single characters;
  - a dict gives its keys;
  - a float `summary_max_words` is compared as a number.

  The model excludes these inputs by its types.
- Floats, dates and non-string keys in JSON/YAML values are not modelled. The value type has integers and string-keyed objects only.
- Dict key order is not modelled, because the model's maps are unordered. The modelled results do not depend on that order:
  - iterating a dict-valued `entities`/`action_items` cannot raise, so only whether some key matches counts;
  - the YAML written back is compared as a map.
- ActionItemsOkMeaning: covers `action_items` that is absent or a list of strings only. For a list holding `null`, numbers or dicts, or for a string or dict value, the outcome is given only by the short-circuit definition (`EvalJudge.AllItems`). There, a falsy item matches only `""`, a truthy non-string raises AttributeError, and iterating a string or dict yields characters or keys.
- `PyText.Lower`: only ASCII letters are lowered. Python's `str.lower()` also lowers non-ASCII letters.
- The agent status a poll returns is an `Option<string>`. Extracting the `endpoint` from the toolkit's response object is not modelled.
- The ARN extraction is written twice in the source (upsert_runtime.py lines 158-169 and 170-181). It is modelled once, because the second copy recomputes the same value.
- `agents/email_agent.py`, `agents/invoke_agent_test.py` and `lambda/email-processor/send_email.py` are not modelled. They are thin wrappers over the agent runtime and SES.
- The change-stream fan-out, text-to-speech and checkpointing subsystem is not part of this model; its source is not among the modelled files.

## Findings

| source | as written | input that shows it | evidently intended | confidence | as-written member | corrected member |
|---|---|---|---|---|---|---|
| lambda/email-processor/index.py:164-165 | `addrs[0] if addrs else "unknown@example.com"` takes the first parsed address even when it is empty. The strict `getaddresses` of current Python releases reports an empty or unparsable To field as the single pair `('', '')`. | a message without a To header: `getaddresses([""])` gives `[('', '')]`, so the recipient is `""` and `PK` is `USER#` | the fallback address is used whenever no usable recipient was parsed | not executed; medium, as it depends on the Python release's `getaddresses` | `EmailItem.BlankAddressDefeatsFallback` | `EmailItem.Recipient` |
| agents/eval/run_eval.py:68-71 | `o["category"] not in cat_allowed` (and the same for `sentiment`) hashes the value, so a list or dict value raises TypeError. That crashes `judge`, and with it the whole evaluation run. | a result `{"category": ["Work"], ...}` | the value is reported as outside the allowed set, as an integer value is, next to its "must be str" error | not executed; high | `EvalSchema.AsWrittenRaisesOnListCategory` | `EvalSchema.ValidateSchema` |

`EmailItem.Derive` uses the corrected recipient. `EmailItem.RecipientAgreesWithToAddr` shows that it equals the code as written whenever the first parsed address is usable.

`EvalJudge.Judge` uses the corrected validator. `EvalJudge.JudgeAsWritten` keeps the crashing one, and `EvalJudge.JudgeAsWrittenAgrees` shows that the two agree on every record where the validator as written does not raise. The correction covers the validator only. With `category_in` or `sentiment_in` given, a list or dict value still makes the category or sentiment check raise TypeError (run_eval.py:105 and :111), as `EvalJudge.ExpectedIn` states.

=== FILE: email_item.dfy ===
/**
  The per-record work of `lambda_handler` in lambda/email-processor/index.py:
  from a parsed e-mail, derive the plain and HTML bodies, the attachment list
  with its storage keys, and the table item keyed by recipient and Message-ID.
  The MIME walk and the address parsing are done by Python's `email` package;
  here their results are inputs: the parts in walk order, the parsed To
  addresses and the parsed (name, address) of From.
 */
module EmailItem {
  import opened PyValue
  import opened PyText

  /** One part of the MIME walk, as the `email` package reports it. */
  datatype Part = Part(
    isMultipart: bool,
    disposition: Option<string>,  // get_content_disposition()
    contentType: string,          // get_content_type()
    filename: Option<string>,     // get_filename()
    content: string)              // get_content()

  /** The parsed message: raw headers, walk, and the outputs of the address parser. */
  datatype Message = Message(
    from: Option<string>,
    to: Option<string>,
    cc: Option<string>,
    bcc: Option<string>,
    subject: Option<string>,
    date: Option<string>,
    messageId: Option<string>,
    parts: seq<Part>,
    toAddrs: seq<string>,         // the addresses getaddresses finds in To
    fromName: string,             // parseaddr(From), display name
    fromAddr: string)             // parseaddr(From), bare address

  datatype Attachment = Attachment(filename: string, s3Key: string)

  /** An object written to the attachment bucket. */
  datatype Upload = Upload(key: string, body: string)

  /** The item written to the table: the key fields, then every field of `out`. */
  datatype Item = Item(
    pk: string,
    sk: string,
    userId: string,
    from: string,
    fromName: string,
    to: Option<string>,
    cc: Option<string>,
    bcc: Option<string>,
    subject: Option<string>,
    date: Option<string>,
    messageId: string,
    plainBody: string,
    htmlBody: string,
    attachments: seq<Attachment>)

  datatype Derived = Derived(item: Item, uploads: seq<Upload>)

  const FallbackRecipient := "unknown@example.com"
  const UnknownFilename := "unknown"
  const AttachmentDisposition := "attachment"
  const PlainType := "text/plain"
  const HtmlType := "text/html"
  const UserPrefix := "USER#"
  const EmailPrefix := "EMAIL#"
  const AttachmentPrefix := "attachments/"

  /** The characters `strip('<>')` removes from both ends of a Message-ID. */
  const Brackets: set<char> := {'<', '>'}

  // ---------------------------------------------------------------------------
  // Keys

  /** `part.get_filename() or "unknown"`. */
  function FileName(p: Part): (f: string)
    ensures f != []
    ensures p.filename.Some? && p.filename.value != [] ==> f == p.filename.value
    ensures !(p.filename.Some? && p.filename.value != []) ==> f == UnknownFilename
  {
    if p.filename.Some? && p.filename.value != [] then p.filename.value else UnknownFilename
  }

  /** `f"attachments/{message_id.strip('<>')}/{fname}"`. */
  function AttachmentKey(messageId: string, fname: string): string {
    AttachmentPrefix + Strip(messageId, Brackets) + "/" + fname
  }

  /**
    `addrs[0] if addrs else "unknown@example.com"`, as written: the first
    parsed To address, even an empty one.
   */
  function ToAddr(addrs: seq<string>): string {
    if addrs != [] then addrs[0] else FallbackRecipient
  }

  /**
    The recipient the handler evidently means: the first non-empty To
    address, or the fallback when the parser found no usable address (a
    strict parser reports an empty or unparsable To field as one empty
    address).
   */
  function Recipient(addrs: seq<string>): (a: string)
    ensures a != []
    ensures (forall i :: 0 <= i < |addrs| ==> addrs[i] == []) ==> a == FallbackRecipient
    ensures (exists i :: 0 <= i < |addrs| && addrs[i] != []) ==>
      exists i :: 0 <= i < |addrs| && addrs[i] == a && forall j :: 0 <= j < i ==> addrs[j] == []
  {
    if addrs == [] then FallbackRecipient
    else if addrs[0] != [] then addrs[0]
    else
      var a := Recipient(addrs[1..]);
      assert forall i :: 0 < i < |addrs| ==> addrs[i] == addrs[1..][i - 1];
      assert forall i :: 0 <= i < |addrs| - 1 ==> addrs[1..][i] == addrs[i + 1];
      a
  }

  /** Where the parser's first address is usable, or there is none, both agree. */
  lemma RecipientAgreesWithToAddr(addrs: seq<string>)
    requires addrs == [] || addrs[0] != []
    ensures Recipient(addrs) == ToAddr(addrs)
  {
  }

  /**
    As written, an empty first address is taken as the recipient: the
    partition key is the bare prefix, while the intended recipient is never
    empty.
   */
  lemma BlankAddressDefeatsFallback(addrs: seq<string>)
    requires addrs != [] && addrs[0] == []
    ensures ToAddr(addrs) == [] && PartitionKey(ToAddr(addrs)) == UserPrefix
    ensures Recipient(addrs) != [] && PartitionKey(Recipient(addrs)) != UserPrefix
  {
  }

  function PartitionKey(toAddr: string): string {
    UserPrefix + toAddr
  }

  function SortKey(messageId: string): string {
    EmailPrefix + Strip(messageId, Brackets)
  }

  // ---------------------------------------------------------------------------
  // Reference definitions of what the walk collects

  predicate IsAttachment(p: Part) {
    !p.isMultipart && p.disposition == Some(AttachmentDisposition)
  }

  /** A part that may become the body of type `t`: a leaf, not an attachment, of that type. */
  predicate BodyCandidate(p: Part, t: string) {
    !p.isMultipart && !IsAttachment(p) && p.contentType == t
  }

  /** The first non-empty content among the body candidates of type `t`, or `""`. */
  function FirstBody(parts: seq<Part>, t: string): string {
    if parts == [] then []
    else if BodyCandidate(parts[0], t) && parts[0].content != [] then parts[0].content
    else FirstBody(parts[1..], t)
  }

  /**
    The body of type `t` is the content of a candidate part preceded by no
    candidate with content; it is empty only when every candidate is empty.
   */
  lemma {:induction false} FirstBodySpec(parts: seq<Part>, t: string)
    ensures var b := FirstBody(parts, t);
      && (b != [] ==> exists i ::
            && 0 <= i < |parts| && BodyCandidate(parts[i], t) && parts[i].content == b
            && forall j :: 0 <= j < i ==> !(BodyCandidate(parts[j], t) && parts[j].content != []))
      && (b == [] ==> forall j :: 0 <= j < |parts| && BodyCandidate(parts[j], t) ==> parts[j].content == [])
  {
    if parts != [] && !(BodyCandidate(parts[0], t) && parts[0].content != []) {
      var b := FirstBody(parts, t);
      FirstBodySpec(parts[1..], t);
      assert forall j :: 1 <= j < |parts| ==> parts[j] == parts[1..][j - 1];
      if b != [] {
        var i :| 0 <= i < |parts[1..]| && BodyCandidate(parts[1..][i], t) && parts[1..][i].content == b
          && forall j :: 0 <= j < i ==> !(BodyCandidate(parts[1..][j], t) && parts[1..][j].content != []);
        assert BodyCandidate(parts[i + 1], t) && parts[i + 1].content == b;
      }
    }
  }

  /** The attachment entries of `parts`, in walk order. */
  function AttachmentsOf(parts: seq<Part>, messageId: string): (r: seq<Attachment>)
    ensures |r| <= |parts|
    ensures forall a :: a in r ==> a.filename != [] && a.s3Key == AttachmentKey(messageId, a.filename)
  {
    if parts == [] then []
    else
      var rest := AttachmentsOf(parts[1..], messageId);
      if IsAttachment(parts[0]) then
        var f := FileName(parts[0]);
        [Attachment(f, AttachmentKey(messageId, f))] + rest
      else rest
  }

  /** The objects written to the bucket: one per attachment, its content under its key. */
  function UploadsOf(parts: seq<Part>, messageId: string): seq<Upload> {
    if parts == [] then []
    else
      var rest := UploadsOf(parts[1..], messageId);
      if IsAttachment(parts[0]) then
        [Upload(AttachmentKey(messageId, FileName(parts[0])), parts[0].content)] + rest
      else rest
  }

  /** The uploads line up with the attachment entries: the i-th object is stored under the i-th key. */
  lemma {:induction false} UploadsMatchAttachments(parts: seq<Part>, messageId: string)
    ensures |UploadsOf(parts, messageId)| == |AttachmentsOf(parts, messageId)|
    ensures forall i :: 0 <= i < |UploadsOf(parts, messageId)| ==>
      UploadsOf(parts, messageId)[i].key == AttachmentsOf(parts, messageId)[i].s3Key
  {
    if parts != [] {
      UploadsMatchAttachments(parts[1..], messageId);
    }
  }

  // ---------------------------------------------------------------------------
  // The walk

  /** What the loop has gathered so far. */
  datatype Gathered = Gathered(plain: string, html: string, attachments: seq<Attachment>, uploads: seq<Upload>)

  /** One iteration of `for part in msg.walk()`, for a message whose Message-ID is known. */
  function Step(g: Gathered, p: Part, messageId: string): Gathered {
    if p.isMultipart then g
    else if p.disposition == Some(AttachmentDisposition) then
      var f := FileName(p);
      var key := AttachmentKey(messageId, f);
      g.(attachments := g.attachments + [Attachment(f, key)], uploads := g.uploads + [Upload(key, p.content)])
    else if p.contentType == PlainType && g.plain == [] then g.(plain := p.content)
    else if p.contentType == HtmlType && g.html == [] then g.(html := p.content)
    else g
  }

  /** The loop state after `ps` is what the reference definitions say. */
  predicate Agrees(g: Gathered, ps: seq<Part>, messageId: string) {
    && g.plain == FirstBody(ps, PlainType)
    && g.html == FirstBody(ps, HtmlType)
    && g.attachments == AttachmentsOf(ps, messageId)
    && g.uploads == UploadsOf(ps, messageId)
  }

  lemma {:induction false} FirstBodySnoc(ps: seq<Part>, p: Part, t: string)
    ensures FirstBody(ps + [p], t) ==
      if FirstBody(ps, t) != [] then FirstBody(ps, t)
      else if BodyCandidate(p, t) then p.content
      else []
  {
    if ps == [] {
      assert [p][1..] == [];
    } else {
      assert (ps + [p])[1..] == ps[1..] + [p];
      FirstBodySnoc(ps[1..], p, t);
    }
  }

  lemma {:induction false} AttachmentsSnoc(ps: seq<Part>, p: Part, messageId: string)
    ensures AttachmentsOf(ps + [p], messageId) ==
      AttachmentsOf(ps, messageId)
      + (if IsAttachment(p) then [Attachment(FileName(p), AttachmentKey(messageId, FileName(p)))] else [])
    ensures UploadsOf(ps + [p], messageId) ==
      UploadsOf(ps, messageId)
      + (if IsAttachment(p) then [Upload(AttachmentKey(messageId, FileName(p)), p.content)] else [])
  {
    if ps == [] {
      assert [p][1..] == [];
    } else {
      assert (ps + [p])[1..] == ps[1..] + [p];
      AttachmentsSnoc(ps[1..], p, messageId);
    }
  }

  /** One step of the loop keeps the state in agreement with the reference definitions. */
  lemma StepAgrees(g: Gathered, ps: seq<Part>, p: Part, messageId: string)
    requires Agrees(g, ps, messageId)
    ensures Agrees(Step(g, p, messageId), ps + [p], messageId)
  {
    FirstBodySnoc(ps, p, PlainType);
    FirstBodySnoc(ps, p, HtmlType);
    AttachmentsSnoc(ps, p, messageId);
    assert PlainType != HtmlType;
  }

  /**
    `for part in msg.walk()`: gathers the bodies and the attachments. Without
    a Message-ID the first attachment part raises, since `strip` is called on
    `None` to build its key.
   */
  method WalkParts(parts: seq<Part>, messageId: Option<string>) returns (r: Outcome<Gathered>)
    ensures r.Raised? <==> messageId.None? && exists j :: 0 <= j < |parts| && IsAttachment(parts[j])
    ensures r.Raised? ==> r.error == AttributeError
    ensures r.Ok? ==> Agrees(r.value, parts, messageId.GetOr([]))
  {
    var id := messageId.GetOr([]);
    var g := Gathered([], [], [], []);
    var i := 0;
    while i < |parts|
      invariant 0 <= i <= |parts|
      invariant Agrees(g, parts[..i], id)
      invariant messageId.None? ==> forall j :: 0 <= j < i ==> !IsAttachment(parts[j])
    {
      var p := parts[i];
      if IsAttachment(p) && messageId.None? {
        return Raised(AttributeError);
      }
      StepAgrees(g, parts[..i], p, id);
      assert parts[..i + 1] == parts[..i] + [p];
      g := Step(g, p, id);
      i := i + 1;
    }
    assert parts[..i] == parts;
    return Ok(g);
  }

  /**
    `lambda_handler` for one record, without the downloads, uploads, agent
    call and table write: the item and the objects to upload. A missing
    Message-ID makes `strip` fail on `None`, at the first attachment or else
    when the sort key is built, before anything is uploaded.
   */
  method Derive(msg: Message) returns (r: Outcome<Derived>)
    ensures r.Raised? <==> msg.messageId.None?
    ensures r.Raised? ==> r.error == AttributeError
    ensures r.Ok? ==> var id := msg.messageId.value; var it := r.value.item;
      && it.plainBody == FirstBody(msg.parts, PlainType)
      && it.htmlBody == FirstBody(msg.parts, HtmlType)
      && it.attachments == AttachmentsOf(msg.parts, id)
      && r.value.uploads == UploadsOf(msg.parts, id)
      && it.userId == Recipient(msg.toAddrs)
      && it.pk == PartitionKey(it.userId)
      && it.sk == SortKey(id)
      && it.messageId == id
      && it.from == msg.fromAddr && it.fromName == msg.fromName
      && it.to == msg.to && it.cc == msg.cc && it.bcc == msg.bcc
      && it.subject == msg.subject && it.date == msg.date
  {
    var walked := WalkParts(msg.parts, msg.messageId);
    if walked.Raised? {
      return Raised(walked.error);
    }
    if msg.messageId.None? {
      return Raised(AttributeError);
    }
    var id := msg.messageId.value;
    var g := walked.value;
    var toAddr := Recipient(msg.toAddrs);
    var item := Item(
      PartitionKey(toAddr), SortKey(id), toAddr,
      msg.fromAddr, msg.fromName, msg.to, msg.cc, msg.bcc, msg.subject, msg.date, id,
      g.plain, g.html, g.attachments);
    return Ok(Derived(item, g.uploads));
  }

  // ---------------------------------------------------------------------------
  // Properties of the derivation

  /** Multipart containers contribute nothing, wherever they sit in the walk. */
  lemma {:induction false} MultipartIgnored(ps: seq<Part>, i: nat, q: Part, messageId: string, t: string)
    requires i <= |ps| && q.isMultipart
    ensures FirstBody(ps[..i] + [q] + ps[i..], t) == FirstBody(ps, t)
    ensures AttachmentsOf(ps[..i] + [q] + ps[i..], messageId) == AttachmentsOf(ps, messageId)
    ensures UploadsOf(ps[..i] + [q] + ps[i..], messageId) == UploadsOf(ps, messageId)
  {
    var qs := ps[..i] + [q] + ps[i..];
    if i == 0 {
      assert qs[1..] == ps;
    } else {
      assert qs[0] == ps[0];
      assert qs[1..] == ps[1..][..i - 1] + [q] + ps[1..][i - 1..];
      MultipartIgnored(ps[1..], i - 1, q, messageId, t);
    }
  }

  /** A part marked as an attachment is never a body, whatever its content type. */
  lemma {:induction false} AttachmentNeverBody(ps: seq<Part>, t: string)
    requires forall j :: 0 <= j < |ps| && ps[j].contentType == t && !ps[j].isMultipart ==> IsAttachment(ps[j])
    ensures FirstBody(ps, t) == []
  {
    if ps != [] {
      assert forall j :: 0 <= j < |ps[1..]| ==> ps[1..][j] == ps[j + 1];
      AttachmentNeverBody(ps[1..], t);
    }
  }

  /** The attachment parts of the walk, in order. */
  function AttachmentParts(ps: seq<Part>): seq<Part> {
    if ps == [] then []
    else if IsAttachment(ps[0]) then [ps[0]] + AttachmentParts(ps[1..])
    else AttachmentParts(ps[1..])
  }

  /** There is one attachment entry per attachment part, in walk order, named by that part's file name. */
  lemma {:induction false} OneEntryPerAttachment(ps: seq<Part>, messageId: string)
    ensures |AttachmentsOf(ps, messageId)| == |AttachmentParts(ps)|
    ensures forall k :: 0 <= k < |AttachmentParts(ps)| ==>
      AttachmentsOf(ps, messageId)[k].filename == FileName(AttachmentParts(ps)[k])
  {
    if ps != [] {
      var tail := ps[1..];
      OneEntryPerAttachment(tail, messageId);
      if IsAttachment(ps[0]) {
        var f := FileName(ps[0]);
        var e := Attachment(f, AttachmentKey(messageId, f));
        assert AttachmentParts(ps) == [ps[0]] + AttachmentParts(tail);
        assert AttachmentsOf(ps, messageId) == [e] + AttachmentsOf(tail, messageId);
      } else {
        assert AttachmentParts(ps) == AttachmentParts(tail);
        assert AttachmentsOf(ps, messageId) == AttachmentsOf(tail, messageId);
      }
    }
  }

  /** The i-th upload carries the content of the i-th attachment part. */
  lemma {:induction false} OneUploadPerAttachment(ps: seq<Part>, messageId: string)
    ensures |UploadsOf(ps, messageId)| == |AttachmentParts(ps)|
    ensures forall k :: 0 <= k < |AttachmentParts(ps)| ==>
      UploadsOf(ps, messageId)[k].body == AttachmentParts(ps)[k].content
  {
    if ps != [] {
      var tail := ps[1..];
      OneUploadPerAttachment(tail, messageId);
      if IsAttachment(ps[0]) {
        var u := Upload(AttachmentKey(messageId, FileName(ps[0])), ps[0].content);
        assert AttachmentParts(ps) == [ps[0]] + AttachmentParts(tail);
        assert UploadsOf(ps, messageId) == [u] + UploadsOf(tail, messageId);
      } else {
        assert AttachmentParts(ps) == AttachmentParts(tail);
        assert UploadsOf(ps, messageId) == UploadsOf(tail, messageId);
      }
    }
  }

  /**
    Within one message the key of an attachment determines its file name, so
    two attachments with the same name get the same key: the second upload
    overwrites the first.
   */
  lemma AttachmentKeyInjective(messageId: string, f1: string, f2: string)
    ensures AttachmentKey(messageId, f1) == AttachmentKey(messageId, f2) <==> f1 == f2
  {
    var pre := AttachmentPrefix + Strip(messageId, Brackets) + "/";
    assert AttachmentKey(messageId, f1) == pre + f1;
    assert AttachmentKey(messageId, f2) == pre + f2;
    if pre + f1 == pre + f2 {
      assert f1 == (pre + f1)[|pre|..];
      assert f2 == (pre + f2)[|pre|..];
    }
  }

  /**
    The sort key holds the Message-ID without its angle brackets: a bracketed
    id `<x>` whose core `x` neither starts nor ends with a bracket yields
    `EMAIL#x`, and the part after the prefix never starts or ends with one.
   */
  lemma SortKeyStripsBrackets(x: string)
    requires x == [] || (x[0] !in Brackets && x[|x| - 1] !in Brackets)
    ensures SortKey("<" + x + ">") == EmailPrefix + x
    ensures SortKey(x) == EmailPrefix + x
  {
    StripKeepsClean(x, Brackets);
    var s := "<" + x + ">";
    var r := Strip(s, Brackets);
    var i :| StrippedAt(s, Brackets, r, i);
    assert r == [] || (r[0] !in Brackets && r[|r| - 1] !in Brackets);
    if x == [] {
      assert forall k :: 0 <= k < |s| ==> s[k] in Brackets;
      assert r == [];
    } else {
      assert s[0] in Brackets && s[1] !in Brackets;
      assert s[|s| - 1] in Brackets && s[|s| - 2] !in Brackets;
      assert i == 1;
      assert i + |r| == |s| - 1;
      assert r == s[1..|s| - 1];
      assert s[1..|s| - 1] == x;
    }
  }
}

=== FILE: eval_judge.dfy ===
/**
  `judge` of agents/eval/run_eval.py: scores one agent result against the
  expectations of an evaluation case. Either a single `allowed_error` check is
  made (the agent answered with an error object and the case allows errors),
  or seven checks in a fixed order; the score is the fraction that pass.
 */
module EvalJudge {
  import opened PyValue
  import opened PyText
  import opened EvalSchema

  /**
    The expectations of a case. A key absent from them is `None` here;
    `summary_max_words` defaults to 60 and `smart_reply_required` to false.
   */
  datatype Expect = Expect(
    allowErrorCodes: Option<seq<string>>,
    summaryMaxWords: Option<int>,
    categoryIn: Option<seq<string>>,
    sentimentIn: Option<seq<string>>,
    mustHaveEntities: Option<seq<string>>,
    mustHaveActionItemsSubstr: Option<seq<string>>,
    smartReplyRequired: bool)

  const DefaultMaxWords := 60

  datatype CheckName =
    | AllowedError | SchemaValid | SummaryLenOk | CategoryExpected
    | SentimentExpected | EntitiesContainRequired | ActionItemsExpected | SmartReplyPresent

  /** One `(name, ok, message)` entry; the message is not modelled. */
  datatype Check = Check(name: CheckName, ok: bool)

  /** The names of the seven checks of a scored result, in order. */
  const SevenChecks: seq<CheckName> :=
    [SchemaValid, SummaryLenOk, CategoryExpected, SentimentExpected,
     EntitiesContainRequired, ActionItemsExpected, SmartReplyPresent]

  /** The checks of one case; the score is `Passed() / Total()`. */
  datatype Verdict = Verdict(checks: seq<Check>) {
    function Total(): nat {
      |checks|
    }

    function Passed(): nat {
      PassedIn(checks)
    }
  }

  function PassedIn(cs: seq<Check>): nat {
    if cs == [] then 0 else (if cs[0].ok then 1 else 0) + PassedIn(cs[1..])
  }

  // ---------------------------------------------------------------------------
  // Python's `in` and iteration on the values a result may hold

  /** `needle in e` for a string `needle`: substring, list element or dict key; anything else raises. */
  function Contains(needle: string, e: Json): (r: Outcome<bool>)
    ensures r.Raised? <==> !(e.Str? || e.Arr? || e.Obj?)
    ensures r.Raised? ==> r.error == TypeError
    ensures e.Str? ==> r == Ok(Substring(needle, e.s))
    ensures e.Arr? ==> r == Ok(Str(needle) in e.items)
    ensures e.Obj? ==> r == Ok(needle in e.fields)
  {
    match e
    case Str(s) => Ok(Substring(needle, s))
    case Arr(xs) => Ok(Str(needle) in xs)
    case Obj(m) => Ok(needle in m)
    case _ => Raised(TypeError)
  }

  /** The one-character strings iterating a Python string yields. */
  function Chars(s: string): (r: seq<Json>)
    ensures |r| == |s|
    ensures forall i :: 0 <= i < |s| ==> r[i] == Str([s[i]])
  {
    seq(|s|, i requires 0 <= i < |s| => Str([s[i]]))
  }

  /** A value `in` can look into without raising. */
  predicate Container(e: Json) {
    e.Str? || e.Arr? || e.Obj?
  }

  /** `any(needle in e for e in es)`: left to right, stopping at the first match or exception. */
  function AnyContains(needle: string, es: seq<Json>): Outcome<bool> {
    if es == [] then Ok(false)
    else
      var c :- Contains(needle, es[0]);
      if c then Ok(true) else AnyContains(needle, es[1..])
  }

  /** The same `any` over whatever iterating `ents` yields; a non-iterable `ents` raises. */
  function EntityFound(needle: string, ents: Json): Outcome<bool> {
    match ents
    case Arr(xs) => AnyContains(needle, xs)
    case Str(s) => AnyContains(needle, Chars(s))
    case Obj(m) => Ok(exists k :: k in m && Substring(needle, k))
    case _ => Raised(TypeError)
  }

  /** `all(any(needle in e for e in ents) for needle in need)`, taking the needles in the order given. */
  function AllEntities(needles: seq<string>, ents: Json): Outcome<bool> {
    if needles == [] then Ok(true)
    else
      var found :- EntityFound(needles[0], ents);
      if found then AllEntities(needles[1..], ents) else Ok(false)
  }

  /** `sub.lower() in (ai or "").lower()`: a truthy non-string has no `lower` and raises. */
  function ItemHas(sub: string, ai: Json): (r: Outcome<bool>)
    ensures r.Raised? <==> Truthy(ai) && !ai.Str?
    ensures r.Raised? ==> r.error == AttributeError
    ensures ai.Str? ==> r == Ok(Substring(Lower(sub), Lower(ai.s)))
    ensures !Truthy(ai) ==> r == Ok(sub == [])
  {
    if !Truthy(ai) then
      SubstringOfEmpty(Lower(sub));
      Ok(Substring(Lower(sub), []))
    else if ai.Str? then Ok(Substring(Lower(sub), Lower(ai.s)))
    else Raised(AttributeError)
  }

  /** `any(... for ai in items)` for one substring, left to right. */
  function AnyItemHas(sub: string, items: seq<Json>): Outcome<bool> {
    if items == [] then Ok(false)
    else
      var c :- ItemHas(sub, items[0]);
      if c then Ok(true) else AnyItemHas(sub, items[1..])
  }

  function ItemFound(sub: string, aitems: Json): Outcome<bool> {
    match aitems
    case Arr(xs) => AnyItemHas(sub, xs)
    case Str(s) => AnyItemHas(sub, Chars(s))
    case Obj(m) => Ok(exists k :: k in m && Substring(Lower(sub), Lower(k)))
    case _ => Raised(TypeError)
  }

  /** `all(any(...) for sub in need_sub)`, the substrings in list order. */
  function AllItems(subs: seq<string>, aitems: Json): Outcome<bool> {
    if subs == [] then Ok(true)
    else
      var found :- ItemFound(subs[0], aitems);
      if found then AllItems(subs[1..], aitems) else Ok(false)
  }

  // ---------------------------------------------------------------------------
  // The checks

  /** Check 2: the result is a dict whose `summary` is a string of at most `maxWords` words. */
  function SummaryOk(result: Json, maxWords: int): (ok: bool)
    ensures ok <==>
      result.Obj? && "summary" in result.fields && result.fields["summary"].Str?
      && |Words(result.fields["summary"].s)| <= maxWords
  {
    result.Obj? && "summary" in result.fields && result.fields["summary"].Str?
    && WordCount(result.fields["summary"].s) <= maxWords
  }

  /** Checks 3 and 4: `result.get(key) in set(expected)`, when the case narrows the set. */
  function ExpectedIn(result: Json, key: string, expected: Option<seq<string>>): (r: Outcome<bool>)
    ensures expected.None? ==> r == Ok(true)
    ensures expected.Some? && !result.Obj? ==> r == Raised(AttributeError)
    ensures expected.Some? && result.Obj? ==>
      (r.Raised? <==> key in result.fields && !Hashable(result.fields[key]))
    ensures r.Raised? && result.Obj? ==> r.error == TypeError
    ensures expected.Some? && r.Ok? ==>
      (r.value <==> key in result.fields && result.fields[key].Str? && result.fields[key].s in expected.value)
  {
    if expected.None? then Ok(true)
    else
      var v :- Get(result, key, Null);
      InStrSet(v, AsSet(expected.value))
  }

  /** Check 5: every required entity occurs in some entity of the result. */
  function EntitiesOk(result: Json, needles: Option<seq<string>>): (r: Outcome<bool>)
    ensures needles.None? ==> r == Ok(true)
    ensures needles.Some? && !result.Obj? ==> r == Raised(AttributeError)
  {
    if needles.None? then Ok(true)
    else
      var ents :- Get(result, "entities", Arr([]));
      AllEntities(needles.value, ents)
  }

  /**
    On a dict result, the entity check is the order-free reference over the
    set of required needles and the result's `entities` (default `[]`).
   */
  lemma EntitiesOkMeaning(result: Json, needles: seq<string>)
    requires result.Obj?
    ensures EntitiesOk(result, Some(needles)) == EntitiesOverSet(AsSet(needles), FieldOr(result, "entities", Arr([])))
  {
    EntitiesOrderFree(needles, FieldOr(result, "entities", Arr([])));
  }

  /** Check 6: every required substring occurs, ignoring case, in some action item. */
  function ActionItemsOk(result: Json, subs: Option<seq<string>>): (r: Outcome<bool>)
    ensures subs.None? ==> r == Ok(true)
    ensures subs.Some? && !result.Obj? ==> r == Raised(AttributeError)
  {
    if subs.None? then Ok(true)
    else
      var aitems :- Get(result, "action_items", Arr([]));
      AllItems(subs.value, aitems)
  }

  /**
    On a dict result whose action items are strings (or absent), the check
    passes exactly when every required substring occurs, ignoring case, in
    some item, and it never raises.
   */
  lemma ActionItemsOkMeaning(result: Json, subs: seq<string>)
    requires result.Obj? && StringItems(FieldOr(result, "action_items", Arr([])))
    ensures ActionItemsOk(result, Some(subs))
      == Ok(forall sub :: sub in subs ==> SomeItemHas(sub, FieldOr(result, "action_items", Arr([])).items))
  {
    ActionItemsOverStrings(subs, FieldOr(result, "action_items", Arr([])).items);
  }

  /** `result.get(key, default)` on a dict. */
  function FieldOr(result: Json, key: string, default: Json): Json
    requires result.Obj?
  {
    if key in result.fields then result.fields[key] else default
  }

  /** Check 7: when required, `smart_reply` is a non-empty string. */
  function SmartReplyOk(result: Json, required: bool): (r: Outcome<bool>)
    ensures !required ==> r == Ok(true)
    ensures required && !result.Obj? ==> r == Raised(AttributeError)
    ensures required && result.Obj? ==> r == Ok(
      "smart_reply" in result.fields && result.fields["smart_reply"].Str?
      && result.fields["smart_reply"].s != [])
  {
    if !required then Ok(true)
    else
      var v :- Get(result, "smart_reply", Str(""));
      Ok(v.Str? && |v.s| > 0)
  }

  /** The case allows errors and the result is an error object. */
  predicate ErrorBranch(exp: Expect, result: Json) {
    exp.allowErrorCodes.Some? && result.Obj? && "error" in result.fields
  }

  /** The dict `validate_schema` sees: the result, or `{}` when the result is not a dict. */
  function SchemaInput(result: Json): map<string, Json> {
    if result.Obj? then result.fields else map[]
  }

  /** The allowed-error check: the error value is one of the allowed codes. */
  function AllowedErrorCheck(error: Json, codes: seq<string>): (r: Outcome<Verdict>)
    ensures r.Raised? <==> !Hashable(error)
    ensures r.Raised? ==> r.error == TypeError
    ensures r.Ok? ==> r.value.checks == [Check(AllowedError, error.Str? && error.s in codes)]
  {
    var ok :- InStrSet(error, AsSet(codes));
    Ok(Verdict([Check(AllowedError, ok)]))
  }

  /** The seven checks, in order; the first check that raises ends the scoring. */
  function SevenCheckVerdict(exp: Expect, result: Json): (r: Outcome<Verdict>)
    ensures r.Ok? ==> |r.value.checks| == 7
    ensures r.Ok? ==> forall i :: 0 <= i < 7 ==> r.value.checks[i].name == SevenChecks[i]
    ensures r.Ok? <==>
      && ExpectedIn(result, "category", exp.categoryIn).Ok?
      && ExpectedIn(result, "sentiment", exp.sentimentIn).Ok?
      && EntitiesOk(result, exp.mustHaveEntities).Ok?
      && ActionItemsOk(result, exp.mustHaveActionItemsSubstr).Ok?
      && SmartReplyOk(result, exp.smartReplyRequired).Ok?
    ensures r.Ok? ==> var cs := r.value.checks;
      && cs[0].ok == ValidateSchema(SchemaInput(result)).ok
      && cs[1].ok == SummaryOk(result, exp.summaryMaxWords.GetOr(DefaultMaxWords))
      && ExpectedIn(result, "category", exp.categoryIn) == Ok(cs[2].ok)
      && ExpectedIn(result, "sentiment", exp.sentimentIn) == Ok(cs[3].ok)
      && EntitiesOk(result, exp.mustHaveEntities) == Ok(cs[4].ok)
      && ActionItemsOk(result, exp.mustHaveActionItemsSubstr) == Ok(cs[5].ok)
      && SmartReplyOk(result, exp.smartReplyRequired) == Ok(cs[6].ok)
  {
    var schemaOk := ValidateSchema(SchemaInput(result)).ok;
    var summaryOk := SummaryOk(result, exp.summaryMaxWords.GetOr(DefaultMaxWords));
    var categoryOk :- ExpectedIn(result, "category", exp.categoryIn);
    var sentimentOk :- ExpectedIn(result, "sentiment", exp.sentimentIn);
    var entitiesOk :- EntitiesOk(result, exp.mustHaveEntities);
    var itemsOk :- ActionItemsOk(result, exp.mustHaveActionItemsSubstr);
    var replyOk :- SmartReplyOk(result, exp.smartReplyRequired);
    Ok(Verdict([
      Check(SchemaValid, schemaOk),
      Check(SummaryLenOk, summaryOk),
      Check(CategoryExpected, categoryOk),
      Check(SentimentExpected, sentimentOk),
      Check(EntitiesContainRequired, entitiesOk),
      Check(ActionItemsExpected, itemsOk),
      Check(SmartReplyPresent, replyOk)]))
  }

  /**
    `judge`: the verdict on one result, or the exception Python raises while
    scoring it. The schema check is the corrected `ValidateSchema`.
   */
  function Judge(exp: Expect, result: Json): (r: Outcome<Verdict>)
    ensures r.Ok? ==> (r.value.Total() == 1 <==> ErrorBranch(exp, result))
    ensures r.Ok? ==> r.value.Total() == 1 || r.value.Total() == 7
  {
    if ErrorBranch(exp, result) then AllowedErrorCheck(result.fields["error"], exp.allowErrorCodes.value)
    else SevenCheckVerdict(exp, result)
  }

  // ---------------------------------------------------------------------------
  // The entity check does not depend on the order of the needles

  /** `any` over containers only never raises, and finds the needle exactly when some element holds it. */
  lemma {:induction false} AnyContainsOverContainers(needle: string, es: seq<Json>)
    requires forall i :: 0 <= i < |es| ==> Container(es[i])
    ensures AnyContains(needle, es) == Ok(exists i :: 0 <= i < |es| && Contains(needle, es[i]) == Ok(true))
  {
    if es != [] {
      AnyContainsOverContainers(needle, es[1..]);
      assert forall i :: 0 < i < |es| ==> es[i] == es[1..][i - 1];
      assert forall i :: 0 <= i < |es| - 1 ==> es[1..][i] == es[i + 1];
    }
  }

  /** `any` that completes without a match looked into containers only. */
  lemma {:induction false} AnyContainsMissScansAll(needle: string, es: seq<Json>)
    requires AnyContains(needle, es) == Ok(false)
    ensures forall i :: 0 <= i < |es| ==> Container(es[i])
  {
    if es != [] {
      AnyContainsMissScansAll(needle, es[1..]);
      assert forall i :: 0 < i < |es| ==> es[i] == es[1..][i - 1];
    }
  }

  /** The only exception `any` can raise here is TypeError. */
  lemma {:induction false} AnyContainsRaisesTypeError(needle: string, es: seq<Json>)
    ensures AnyContains(needle, es).Raised? ==> AnyContains(needle, es).error == TypeError
  {
    if es != [] {
      AnyContainsRaisesTypeError(needle, es[1..]);
    }
  }

  /** The strings iterating `ents` yields can all be looked into. */
  lemma CharsAreContainers(s: string)
    ensures forall i :: 0 <= i < |Chars(s)| ==> Container(Chars(s)[i])
  {
  }

  /** A needle searched without a match shows that no needle's search raises. */
  lemma EntityMissMeansNoRaise(n: string, m: string, ents: Json)
    requires EntityFound(n, ents) == Ok(false)
    ensures EntityFound(m, ents).Ok?
  {
    match ents
    case Arr(xs) =>
      AnyContainsMissScansAll(n, xs);
      AnyContainsOverContainers(m, xs);
    case Str(s) =>
      CharsAreContainers(s);
      AnyContainsOverContainers(m, Chars(s));
    case Obj(_) =>
    case _ =>
  }

  lemma EntityFoundRaisesTypeError(n: string, ents: Json)
    ensures EntityFound(n, ents).Raised? ==> EntityFound(n, ents).error == TypeError
  {
    match ents
    case Arr(xs) => AnyContainsRaisesTypeError(n, xs);
    case Str(s) => AnyContainsRaisesTypeError(n, Chars(s));
    case _ =>
  }

  /**
    The entity check over the set `need`, as a reference: it raises when the
    search for some needle raises, and otherwise passes when every needle is found.
   */
  function EntitiesOverSet(need: set<string>, ents: Json): Outcome<bool> {
    if exists n :: n in need && EntityFound(n, ents).Raised? then Raised(TypeError)
    else Ok(forall n :: n in need ==> EntityFound(n, ents) == Ok(true))
  }

  /**
    `need` is a Python set, whose iteration order is unspecified; the outcome
    of the short-circuiting `all`/`any` is the same in every order, because it
    equals the reference over the set of needles.
   */
  lemma {:induction false} EntitiesOrderFree(needles: seq<string>, ents: Json)
    ensures AllEntities(needles, ents) == EntitiesOverSet(AsSet(needles), ents)
  {
    if needles != [] {
      var n := needles[0];
      var rest := needles[1..];
      assert AsSet(needles) == {n} + AsSet(rest) by {
        assert forall x :: x in needles <==> x == n || x in rest;
      }
      EntityFoundRaisesTypeError(n, ents);
      EntitiesOrderFree(rest, ents);
      if EntityFound(n, ents) == Ok(false) {
        forall m | m in AsSet(needles) ensures EntityFound(m, ents).Ok? {
          EntityMissMeansNoRaise(n, m, ents);
        }
      }
    }
  }

  /** Two orders of the same needles give the same entity check. */
  lemma EntitiesSameSetSameOutcome(a: seq<string>, b: seq<string>, ents: Json)
    requires forall x :: x in a <==> x in b
    ensures AllEntities(a, ents) == AllEntities(b, ents)
  {
    EntitiesOrderFree(a, ents);
    EntitiesOrderFree(b, ents);
    assert AsSet(a) == AsSet(b);
  }

  // ---------------------------------------------------------------------------
  // The action-item check over string items

  /** Action items that are all strings (an absent key reads as `[]`). */
  predicate StringItems(aitems: Json) {
    aitems.Arr? && forall i :: 0 <= i < |aitems.items| ==> aitems.items[i].Str?
  }

  /** Some string item contains `sub`, ignoring case: the reference for one substring. */
  predicate SomeItemHas(sub: string, items: seq<Json>) {
    exists i :: 0 <= i < |items| && items[i].Str? && Substring(Lower(sub), Lower(items[i].s))
  }

  /** Over string items, the short-circuit `any` never raises and agrees with the reference. */
  lemma {:induction false} AnyItemHasOverStrings(sub: string, items: seq<Json>)
    requires forall i :: 0 <= i < |items| ==> items[i].Str?
    ensures AnyItemHas(sub, items) == Ok(SomeItemHas(sub, items))
  {
    if items != [] {
      var rest := items[1..];
      assert forall i :: 0 <= i < |rest| ==> rest[i] == items[i + 1];
      AnyItemHasOverStrings(sub, rest);
      if SomeItemHas(sub, rest) {
        var i :| 0 <= i < |rest| && rest[i].Str? && Substring(Lower(sub), Lower(rest[i].s));
        assert items[i + 1] == rest[i];
      }
      if SomeItemHas(sub, items) && !Substring(Lower(sub), Lower(items[0].s)) {
        var i :| 0 <= i < |items| && items[i].Str? && Substring(Lower(sub), Lower(items[i].s));
        assert i > 0 && rest[i - 1] == items[i];
      }
    }
  }

  /** Over string items, the action-item check passes exactly when every substring is found in some item. */
  lemma {:induction false} ActionItemsOverStrings(subs: seq<string>, items: seq<Json>)
    requires forall i :: 0 <= i < |items| ==> items[i].Str?
    ensures AllItems(subs, Arr(items)) == Ok(forall sub :: sub in subs ==> SomeItemHas(sub, items))
  {
    if subs != [] {
      AnyItemHasOverStrings(subs[0], items);
      ActionItemsOverStrings(subs[1..], items);
      assert forall x :: x in subs <==> x == subs[0] || x in subs[1..];
    }
  }

  // ---------------------------------------------------------------------------
  // The action-item check ignores case; the entity check does not

  function LowerAll(ws: seq<string>): (r: seq<string>)
    ensures |r| == |ws|
    ensures forall i :: 0 <= i < |ws| ==> r[i] == Lower(ws[i])
  {
    if ws == [] then [] else [Lower(ws[0])] + LowerAll(ws[1..])
  }

  /** A list of strings as a JSON array. */
  function StrList(ws: seq<string>): (r: seq<Json>)
    ensures |r| == |ws|
    ensures forall i :: 0 <= i < |ws| ==> r[i] == Str(ws[i])
  {
    if ws == [] then [] else [Str(ws[0])] + StrList(ws[1..])
  }

  lemma ItemHasIgnoresCase(sub: string, w: string)
    ensures ItemHas(Lower(sub), Str(Lower(w))) == ItemHas(sub, Str(w))
  {
    LowerIdempotent(sub);
    LowerIdempotent(w);
  }

  lemma {:induction false} AnyItemHasIgnoresCase(sub: string, ws: seq<string>)
    ensures AnyItemHas(Lower(sub), StrList(LowerAll(ws))) == AnyItemHas(sub, StrList(ws))
  {
    if ws != [] {
      ItemHasIgnoresCase(sub, ws[0]);
      assert LowerAll(ws)[1..] == LowerAll(ws[1..]);
      assert StrList(LowerAll(ws))[1..] == StrList(LowerAll(ws[1..]));
      assert StrList(ws)[1..] == StrList(ws[1..]);
      AnyItemHasIgnoresCase(sub, ws[1..]);
    }
  }

  /**
    For action items that are strings, lowering the required substrings and
    the items changes nothing: the check is case-insensitive.
   */
  lemma {:induction false} ActionItemsIgnoreCase(subs: seq<string>, ws: seq<string>)
    ensures AllItems(LowerAll(subs), Arr(StrList(LowerAll(ws)))) == AllItems(subs, Arr(StrList(ws)))
  {
    if subs != [] {
      AnyItemHasIgnoresCase(subs[0], ws);
      assert LowerAll(subs)[1..] == LowerAll(subs[1..]);
      ActionItemsIgnoreCase(subs[1..], ws);
    }
  }

  /** The entity check is case-sensitive: an upper-case entity does not contain its lower-case needle. */
  lemma EntitiesAreCaseSensitive()
    ensures AllEntities(["a"], Arr([Str("A")])) == Ok(false)
    ensures AllItems(["a"], Arr([Str("A")])) == Ok(true)
  {
    var lower, upper := "a", "A";
    assert !Substring(lower, upper) by {
      assert upper[0..1][0] != lower[0];
      assert !OccursAt(lower, upper, 0);
      assert !OccursAt(lower, upper, 1);
    }
    var es := [Str(upper)];
    assert Contains(lower, es[0]) == Ok(false);
    assert AnyContains(lower, es[1..]) == Ok(false);
    assert EntityFound(lower, Arr(es)) == Ok(false);
    assert Lower(upper) == lower;
    assert OccursAt(Lower(lower), Lower(upper), 0);
  }

  // ---------------------------------------------------------------------------
  // Score

  lemma {:induction false} PassedAtMostTotal(cs: seq<Check>)
    ensures PassedIn(cs) <= |cs|
    ensures PassedIn(cs) == |cs| <==> forall i :: 0 <= i < |cs| ==> cs[i].ok
  {
    if cs != [] {
      PassedAtMostTotal(cs[1..]);
      assert forall i :: 0 < i < |cs| ==> cs[i] == cs[1..][i - 1];
    }
  }

  /**
    `sum(1 for _, ok, _ in checks if ok)`: a single check adds one exactly when
    it passed, and the count over a concatenation is the sum of the counts, so
    the count is the number of passing checks.
   */
  lemma {:induction false} PassedAppend(a: seq<Check>, b: seq<Check>)
    ensures PassedIn(a + b) == PassedIn(a) + PassedIn(b)
    ensures |b| == 1 ==> PassedIn(b) == (if b[0].ok then 1 else 0)
  {
    if a == [] {
      assert a + b == b;
    } else {
      assert (a + b)[1..] == a[1..] + b;
      PassedAppend(a[1..], b);
    }
    if |b| == 1 {
      assert b[1..] == [];
    }
  }

  /** A score is between 0 and 1, and it is 1 exactly when every check passed. */
  lemma ScoreBounded(exp: Expect, result: Json)
    requires Judge(exp, result).Ok?
    ensures var v := Judge(exp, result).value;
      && v.Total() > 0 && v.Passed() <= v.Total()
      && (v.Passed() == v.Total() <==> forall i :: 0 <= i < |v.checks| ==> v.checks[i].ok)
  {
    PassedAtMostTotal(Judge(exp, result).value.checks);
  }

  /** The case allows errors and the result is an error object: one check, on the error value. */
  lemma AllowedErrorScored(exp: Expect, result: Json)
    requires ErrorBranch(exp, result)
    ensures var e := result.fields["error"];
      && (Judge(exp, result).Raised? <==> !Hashable(e))
      && (Judge(exp, result).Raised? ==> Judge(exp, result).error == TypeError)
      && (Judge(exp, result).Ok? ==>
            Judge(exp, result).value.checks
              == [Check(AllowedError, e.Str? && e.s in exp.allowErrorCodes.value)])
  {
  }

  /** With no optional expectation, checks 3 to 7 pass, whatever the result, and nothing raises. */
  lemma OptionalChecksVacuous(exp: Expect, result: Json)
    requires exp.allowErrorCodes.None? && exp.categoryIn.None? && exp.sentimentIn.None?
    requires exp.mustHaveEntities.None? && exp.mustHaveActionItemsSubstr.None?
    requires !exp.smartReplyRequired
    ensures Judge(exp, result).Ok?
    ensures forall i :: 2 <= i < |Judge(exp, result).value.checks| ==> Judge(exp, result).value.checks[i].ok
  {
  }

  /**
    Each optional check passes when its own expectation is absent, whatever
    the other expectations and the result are.
   */
  lemma UnrequestedCheckPasses(exp: Expect, result: Json)
    requires !ErrorBranch(exp, result) && Judge(exp, result).Ok?
    ensures var cs := Judge(exp, result).value.checks;
      && |cs| == 7
      && (exp.categoryIn.None? ==> cs[2].ok)
      && (exp.sentimentIn.None? ==> cs[3].ok)
      && (exp.mustHaveEntities.None? ==> cs[4].ok)
      && (exp.mustHaveActionItemsSubstr.None? ==> cs[5].ok)
      && (!exp.smartReplyRequired ==> cs[6].ok)
  {
  }

  /**
    What the schema, summary, category, sentiment and smart-reply checks of a
    scored verdict mean, in terms of the result alone: the schema conforms,
    the summary is short enough, the category and sentiment are among the
    expected strings, and a required smart reply is a non-empty string.
   */
  lemma ScoredChecksMean(exp: Expect, result: Json)
    requires !ErrorBranch(exp, result) && Judge(exp, result).Ok?
    ensures var cs := Judge(exp, result).value.checks;
      && |cs| == 7
      && (cs[0].ok <==> Conforms(SchemaInput(result)))
      && (cs[1].ok <==>
            result.Obj? && "summary" in result.fields && result.fields["summary"].Str?
            && |Words(result.fields["summary"].s)| <= exp.summaryMaxWords.GetOr(DefaultMaxWords))
      && (exp.categoryIn.Some? ==> (cs[2].ok <==>
            "category" in result.fields && result.fields["category"].Str?
            && result.fields["category"].s in exp.categoryIn.value))
      && (exp.sentimentIn.Some? ==> (cs[3].ok <==>
            "sentiment" in result.fields && result.fields["sentiment"].Str?
            && result.fields["sentiment"].s in exp.sentimentIn.value))
      && (exp.smartReplyRequired ==> (cs[6].ok <==>
            "smart_reply" in result.fields && result.fields["smart_reply"].Str?
            && result.fields["smart_reply"].s != []))
  {
    SchemaOkIffConforms(SchemaInput(result));
  }

  /**
    What the entity and action-item checks of a scored verdict mean: every
    required entity is found, and every required substring occurs in some
    action item when those are strings.
   */
  lemma ScoredSearchChecksMean(exp: Expect, result: Json)
    requires !ErrorBranch(exp, result) && Judge(exp, result).Ok?
    ensures var cs := Judge(exp, result).value.checks;
      && |cs| == 7
      && (exp.mustHaveEntities.Some? ==> (cs[4].ok <==>
            forall n :: n in exp.mustHaveEntities.value ==>
              EntityFound(n, FieldOr(result, "entities", Arr([]))) == Ok(true)))
      && (exp.mustHaveActionItemsSubstr.Some? && StringItems(FieldOr(result, "action_items", Arr([]))) ==>
            (cs[5].ok <==> forall sub :: sub in exp.mustHaveActionItemsSubstr.value ==>
              SomeItemHas(sub, FieldOr(result, "action_items", Arr([])).items)))
  {
    if exp.mustHaveEntities.Some? {
      EntitiesOkMeaning(result, exp.mustHaveEntities.value);
      var need := AsSet(exp.mustHaveEntities.value);
      assert forall n :: n in exp.mustHaveEntities.value <==> n in need;
    }
    if exp.mustHaveActionItemsSubstr.Some? && StringItems(FieldOr(result, "action_items", Arr([]))) {
      ActionItemsOkMeaning(result, exp.mustHaveActionItemsSubstr.value);
    }
  }

  /** A result that is not a dict makes `result.get` raise as soon as an optional check needs it. */
  lemma NonDictRaises(exp: Expect, result: Json)
    requires !result.Obj?
    requires exp.categoryIn.Some? || exp.sentimentIn.Some? || exp.mustHaveEntities.Some?
          || exp.mustHaveActionItemsSubstr.Some? || exp.smartReplyRequired
    ensures Judge(exp, result) == Raised(AttributeError)
  {
  }

  /** A result that is not a dict is scored against `{}`: its schema and summary checks fail. */
  lemma NonDictFailsSchemaAndSummary(exp: Expect, result: Json)
    requires !result.Obj? && Judge(exp, result).Ok?
    ensures !Judge(exp, result).value.checks[0].ok && !Judge(exp, result).value.checks[1].ok
  {
    EmptyRecordFails();
  }

  lemma EmptyRecordFails()
    ensures !ValidateSchema(map[]).ok
  {
    var o: map<string, Json> := map[];
    MissingErrorSpec(o);
    assert Summary.Name() !in o;
  }

  /** The seven-check branch with the schema check as written. */
  function JudgeAsWritten(exp: Expect, result: Json): (r: Outcome<Verdict>)
    ensures !ErrorBranch(exp, result) && result.Obj?
      && (exists f: Field :: f.IsEnum() && f.Name() in result.fields && !Hashable(result.fields[f.Name()]))
      ==> r == Raised(TypeError)
  {
    if ErrorBranch(exp, result) then Judge(exp, result)
    else
      var _ :- ValidateSchemaAsWritten(SchemaInput(result));
      SevenCheckVerdict(exp, result)
  }

  /** Apart from the records on which the schema check as written raises, both judges agree. */
  lemma JudgeAsWrittenAgrees(exp: Expect, result: Json)
    requires ValidateSchemaAsWritten(SchemaInput(result)).Ok?
    ensures JudgeAsWritten(exp, result) == Judge(exp, result)
  {
  }
}

=== FILE: eval_schema.dfy ===
/**
  `validate_schema` of agents/eval/run_eval.py: the checker for the AI-insight
  record an email agent returns. It reports, in this order, the missing required
  keys (one error), a wrong type per present key, and a value outside the closed
  set for a present `category` or `sentiment`.
 */
module EvalSchema {
  import opened PyValue

  /** The Python type a required key must hold. */
  datatype PyType = StrType | BoolType | ListType

  /** The ten required keys of an insight record. */
  datatype Field =
    | Summary | Category | Sentiment | IsUrgent | KeyDates
    | Amounts | ActionItems | Entities | Links | Attachments
  {
    /** The key under which the field is stored. */
    function Name(): string {
      match this
      case Summary => "summary"
      case Category => "category"
      case Sentiment => "sentiment"
      case IsUrgent => "is_urgent"
      case KeyDates => "key_dates"
      case Amounts => "amounts"
      case ActionItems => "action_items"
      case Entities => "entities"
      case Links => "links"
      case Attachments => "attachments"
    }

    function Type(): PyType {
      match this
      case Summary | Category | Sentiment => StrType
      case IsUrgent => BoolType
      case _ => ListType
    }

    /** `category` and `sentiment` draw their value from a closed set. */
    predicate IsEnum() {
      this == Category || this == Sentiment
    }

    function Allowed(): set<string>
      requires IsEnum()
    {
      if this == Category then Categories else Sentiments
    }
  }

  /** The required keys in the order they are checked and reported. */
  const Fields: seq<Field> :=
    [Summary, Category, Sentiment, IsUrgent, KeyDates,
     Amounts, ActionItems, Entities, Links, Attachments]

  const Categories: set<string> :=
    {"Work", "Personal", "Finance", "Marketing / Promotions", "Social",
     "Spam", "Travel", "Receipts", "Other"}

  const Sentiments: set<string> := {"Positive", "Neutral", "Negative", "Mixed"}

  datatype SchemaError =
    | MissingKeys(keys: seq<string>)        // "Missing keys: [...]"
    | WrongType(field: Field)               // "<key> must be str|bool|list"
    | NotAllowed(field: Field, value: Json) // "<key> not in allowed set: <value>"

  /** The `(ok, errors)` pair `validate_schema` returns. */
  datatype SchemaReport = SchemaReport(ok: bool, errors: seq<SchemaError>)

  /** `isinstance(v, str|bool|list)`. A Python `bool` is not a `str`, and so on. */
  predicate HasType(v: Json, t: PyType) {
    match t
    case StrType => v.Str?
    case BoolType => v.Bool?
    case ListType => v.Arr?
  }

  predicate InEnum(v: Json, allowed: set<string>) {
    v.Str? && v.s in allowed
  }

  /** The record passes the checks of field `f`. */
  predicate FieldConforms(o: map<string, Json>, f: Field) {
    && f.Name() in o
    && HasType(o[f.Name()], f.Type())
    && (f.IsEnum() ==> InEnum(o[f.Name()], f.Allowed()))
  }

  /** A record that passes every check. This is the meaning of `ok`. */
  predicate Conforms(o: map<string, Json>) {
    forall f: Field :: FieldConforms(o, f)
  }

  /** `m` keeps some elements of `keys` in their original order. */
  predicate SubsequenceOf(m: seq<string>, keys: seq<string>) {
    if m == [] then true
    else if keys == [] then false
    else if m[0] == keys[0] then SubsequenceOf(m[1..], keys[1..])
    else SubsequenceOf(m, keys[1..])
  }

  /** The keys of `fs`, in order. */
  function Names(fs: seq<Field>): (r: seq<string>)
    ensures |r| == |fs|
    ensures forall i :: 0 <= i < |fs| ==> r[i] == fs[i].Name()
  {
    if fs == [] then [] else [fs[0].Name()] + Names(fs[1..])
  }

  /** `[k for k in req if k not in o]`. */
  function Missing(o: map<string, Json>, fs: seq<Field>): seq<string> {
    if fs == [] then []
    else if fs[0].Name() !in o then [fs[0].Name()] + Missing(o, fs[1..])
    else Missing(o, fs[1..])
  }

  /** The type checks, one per present field of `fs`, in the order of `fs`. */
  function TypeErrors(o: map<string, Json>, fs: seq<Field>): seq<SchemaError> {
    if fs == [] then []
    else
      var f := fs[0];
      (if f.Name() in o && !HasType(o[f.Name()], f.Type()) then [WrongType(f)] else [])
      + TypeErrors(o, fs[1..])
  }

  /** The single "Missing keys" error, when any required key is absent. */
  function MissingError(o: map<string, Json>): seq<SchemaError> {
    var missing := Missing(o, Fields);
    if missing == [] then [] else [MissingKeys(missing)]
  }

  /** The enum check of one field: a present value outside the closed set is reported. */
  function EnumError(o: map<string, Json>, f: Field): seq<SchemaError>
    requires f.IsEnum()
  {
    if f.Name() in o && !InEnum(o[f.Name()], f.Allowed()) then [NotAllowed(f, o[f.Name()])] else []
  }

  function EnumErrors(o: map<string, Json>): seq<SchemaError> {
    EnumError(o, Category) + EnumError(o, Sentiment)
  }

  /** The errors in the order `validate_schema` appends them, given its enum errors. */
  function Assemble(o: map<string, Json>, enumErrors: seq<SchemaError>): SchemaReport {
    var errors := MissingError(o) + TypeErrors(o, Fields) + enumErrors;
    SchemaReport(|errors| == 0, errors)
  }

  /**
    `validate_schema` with the enum checks as evidently intended: a list or
    dict `category`/`sentiment` is reported as outside the set, the way an
    integer one is. Its errors are the missing-keys error, then the type errors,
    then the enum errors, and it is `ok` exactly when there are none.
   */
  function ValidateSchema(o: map<string, Json>): (r: SchemaReport)
    ensures r.ok <==> r.errors == []
  {
    Assemble(o, EnumErrors(o))
  }

  // ---------------------------------------------------------------------------
  // What each part of the report means

  /** The missing keys are exactly the absent keys of `fs`, kept in the order of `fs`. */
  lemma {:induction false} MissingSpec(o: map<string, Json>, fs: seq<Field>)
    ensures forall k :: k in Missing(o, fs) <==> exists f :: f in fs && f.Name() == k && k !in o
    ensures SubsequenceOf(Missing(o, fs), Names(fs))
  {
    if fs != [] {
      MissingSpec(o, fs[1..]);
      assert Names(fs) == [fs[0].Name()] + Names(fs[1..]);
      assert forall f :: f in fs <==> f == fs[0] || f in fs[1..];
    }
  }

  /** A field of `fs` gets a type error exactly when it is present with the wrong type. */
  lemma {:induction false} TypeErrorsSpec(o: map<string, Json>, fs: seq<Field>)
    ensures forall e :: e in TypeErrors(o, fs) ==> e.WrongType?
    ensures forall f :: WrongType(f) in TypeErrors(o, fs) <==>
      f in fs && f.Name() in o && !HasType(o[f.Name()], f.Type())
  {
    if fs != [] {
      TypeErrorsSpec(o, fs[1..]);
      assert forall f :: f in fs <==> f == fs[0] || f in fs[1..];
    }
  }

  /** An enumerated field gets an enum error exactly when it is present and not an allowed string. */
  lemma EnumErrorsSpec(o: map<string, Json>)
    ensures forall e :: e in EnumErrors(o) ==> e.NotAllowed?
    ensures forall f, v :: NotAllowed(f, v) in EnumErrors(o) <==>
      f.IsEnum() && f.Name() in o && v == o[f.Name()] && !InEnum(v, f.Allowed())
  {
  }

  /** There is a "Missing keys" error, only one, exactly when some required key is absent. */
  lemma MissingErrorSpec(o: map<string, Json>)
    ensures |MissingError(o)| <= 1
    ensures forall e :: e in MissingError(o) ==> e == MissingKeys(Missing(o, Fields))
    ensures MissingError(o) != [] <==> exists f: Field :: f.Name() !in o
  {
    AllFieldsListed();
    SomeMissingIff(o, Fields);
  }

  /** When `fs` lists every field, something is missing exactly when some field's key is absent. */
  lemma SomeMissingIff(o: map<string, Json>, fs: seq<Field>)
    requires forall f: Field :: f in fs
    ensures Missing(o, fs) != [] <==> exists f: Field :: f.Name() !in o
  {
    MissingSpec(o, fs);
    var m := Missing(o, fs);
    if m != [] {
      assert m[0] in m;
    }
  }

  /** Every field is one of `Fields`. */
  lemma AllFieldsListed()
    ensures forall f: Field :: f in Fields
  {
    forall f: Field ensures f in Fields {
      match f
      case Summary => assert Fields[0] == f;
      case Category => assert Fields[1] == f;
      case Sentiment => assert Fields[2] == f;
      case IsUrgent => assert Fields[3] == f;
      case KeyDates => assert Fields[4] == f;
      case Amounts => assert Fields[5] == f;
      case ActionItems => assert Fields[6] == f;
      case Entities => assert Fields[7] == f;
      case Links => assert Fields[8] == f;
      case Attachments => assert Fields[9] == f;
    }
  }

  /**
    Type and enum checks fire only for present keys: a field gets a type error
    exactly when it is present with the wrong type, and an enumerated field gets
    an enum error exactly when it is present and not one of its allowed strings.
   */
  lemma ChecksFireOnlyWhenPresent(o: map<string, Json>)
    ensures forall f :: WrongType(f) in ValidateSchema(o).errors <==>
      f.Name() in o && !HasType(o[f.Name()], f.Type())
    ensures forall f, v :: NotAllowed(f, v) in ValidateSchema(o).errors <==>
      f.IsEnum() && f.Name() in o && v == o[f.Name()] && !InEnum(v, f.Allowed())
  {
    AllFieldsListed();
    MissingErrorSpec(o);
    TypeErrorsSpec(o, Fields);
    EnumErrorsSpec(o);
  }

  lemma NoTypeErrorsIff(o: map<string, Json>, fs: seq<Field>)
    ensures TypeErrors(o, fs) == [] <==>
      forall f :: f in fs && f.Name() in o ==> HasType(o[f.Name()], f.Type())
  {
    TypeErrorsSpec(o, fs);
    var r := TypeErrors(o, fs);
    if r != [] {
      assert r[0] in r;
      assert WrongType(r[0].field) in r;
    }
  }

  lemma NoEnumErrorsIff(o: map<string, Json>)
    ensures EnumErrors(o) == [] <==>
      forall f: Field :: f.IsEnum() && f.Name() in o ==> InEnum(o[f.Name()], f.Allowed())
  {
    EnumErrorsSpec(o);
    var r := EnumErrors(o);
    if r != [] {
      assert r[0] in r;
      assert NotAllowed(r[0].field, r[0].value) in r;
    }
  }

  /** `ok` holds exactly for the records that pass every check. */
  lemma SchemaOkIffConforms(o: map<string, Json>)
    ensures ValidateSchema(o).ok <==> Conforms(o)
  {
    AllFieldsListed();
    MissingErrorSpec(o);
    NoTypeErrorsIff(o, Fields);
    NoEnumErrorsIff(o);
    if Conforms(o) {
      forall f: Field ensures f.Name() in o && HasType(o[f.Name()], f.Type()) {
        assert FieldConforms(o, f);
      }
      forall f: Field | f.IsEnum() ensures InEnum(o[f.Name()], f.Allowed()) {
        assert FieldConforms(o, f);
      }
    }
  }


  /**
    When a required key is absent, the first error is the one "Missing keys"
    error; it lists the absent keys in the order of `Fields`, and no other
    error is a "Missing keys" error.
   */
  lemma MissingKeysReportedOnce(o: map<string, Json>)
    ensures var r := ValidateSchema(o);
      && ((|r.errors| > 0 && r.errors[0].MissingKeys?) <==> exists f: Field :: f.Name() !in o)
      && (forall i :: 0 <= i < |r.errors| && r.errors[i].MissingKeys? ==>
            i == 0 && r.errors[i].keys == Missing(o, Fields))
  {
    MissingErrorSpec(o);
    TypeErrorsSpec(o, Fields);
    EnumErrorsSpec(o);
    var m := MissingError(o);
    var rest := TypeErrors(o, Fields) + EnumErrors(o);
    assert ValidateSchema(o).errors == m + rest;
    LeadingOnly(m, rest);
  }

  /** A list made of at most one "Missing keys" error followed by others has it only at the head. */
  lemma LeadingOnly(m: seq<SchemaError>, rest: seq<SchemaError>)
    requires |m| <= 1 && forall e :: e in m ==> e.MissingKeys?
    requires forall e :: e in rest ==> !e.MissingKeys?
    ensures (|m + rest| > 0 && (m + rest)[0].MissingKeys?) <==> m != []
    ensures forall i :: 0 <= i < |m + rest| && (m + rest)[i].MissingKeys? ==> i == 0 && (m + rest)[i] == m[0]
  {
    var all := m + rest;
    assert forall j :: |m| <= j < |all| ==> all[j] == rest[j - |m|] && rest[j - |m|] in rest;
    if m != [] {
      assert all[0] == m[0];
      assert m[0] in m;
    }
  }

  /**
    The enum check as written: `o[k] not in allowed` hashes the value first, so
    a present list or dict raises TypeError; otherwise it is the corrected check.
   */
  function EnumErrorAsWritten(o: map<string, Json>, f: Field): (r: Outcome<seq<SchemaError>>)
    requires f.IsEnum()
    ensures r.Raised? <==> f.Name() in o && !Hashable(o[f.Name()])
    ensures r.Raised? ==> r.error == TypeError
    ensures r.Ok? ==> r.value == EnumError(o, f)
  {
    if f.Name() !in o then Ok([])
    else
      var present :- InStrSet(o[f.Name()], f.Allowed());
      Ok(if present then [] else [NotAllowed(f, o[f.Name()])])
  }

  /**
    `validate_schema` exactly as written: the enum check of a present list or
    dict `category` or `sentiment` raises TypeError. On every other record it
    agrees with the corrected `ValidateSchema`.
   */
  function ValidateSchemaAsWritten(o: map<string, Json>): (r: Outcome<SchemaReport>)
    ensures r.Raised? <==> exists f: Field :: f.IsEnum() && f.Name() in o && !Hashable(o[f.Name()])
    ensures r.Raised? ==> r.error == TypeError
    ensures r.Ok? ==> r.value == ValidateSchema(o)
  {
    var category :- EnumErrorAsWritten(o, Category);
    var sentiment :- EnumErrorAsWritten(o, Sentiment);
    Ok(Assemble(o, category + sentiment))
  }

  /**
    A record whose `category` is a list crashes the validator as written; the
    corrected validator reports the list as a wrong type and as outside the set.
   */
  lemma AsWrittenRaisesOnListCategory(o: map<string, Json>)
    requires "category" in o && o["category"].Arr?
    ensures ValidateSchemaAsWritten(o) == Raised(TypeError)
    ensures var r := ValidateSchema(o);
      && !r.ok
      && WrongType(Category) in r.errors
      && NotAllowed(Category, o["category"]) in r.errors
  {
    ChecksFireOnlyWhenPresent(o);
    assert Category.Name() == "category";
  }

  lemma {:induction false} NothingMissing(o: map<string, Json>, fs: seq<Field>)
    requires forall f :: f in fs ==> f.Name() !in o
    ensures Missing(o, fs) == Names(fs)
  {
    if fs != [] {
      NothingMissing(o, fs[1..]);
    }
  }

  /** The empty object yields exactly one error, listing all ten keys in order. */
  lemma EmptyRecordOneError()
    ensures ValidateSchema(map[]).errors == [MissingKeys(Names(Fields))]
  {
    var o: map<string, Json> := map[];
    NothingMissing(o, Fields);
    assert MissingError(o) == [MissingKeys(Names(Fields))];
    NoTypeErrorsIff(o, Fields);
    NoEnumErrorsIff(o);
  }
}

=== FILE: py_text.dfy ===
/**
  The handful of Python `str` operations the modelled code relies on:
  `str.split()` with no separator, `in` between strings, `str.lower()` and
  `str.strip(chars)`.
 */
module PyText {

  /** Python's `str.isspace()`: the characters `str.split()` separates on. */
  predicate IsSpace(c: char) {
    var n := c as int;
    || (0x09 <= n <= 0x0D)
    || (0x1C <= n <= 0x20)
    || n == 0x85 || n == 0xA0 || n == 0x1680
    || (0x2000 <= n <= 0x200A)
    || n == 0x2028 || n == 0x2029 || n == 0x202F || n == 0x205F || n == 0x3000
  }

  predicate NoSpace(w: string) {
    forall i :: 0 <= i < |w| ==> !IsSpace(w[i])
  }

  predicate AllSpace(s: string) {
    forall i :: 0 <= i < |s| ==> IsSpace(s[i])
  }

  /** Length of the whitespace run that starts `s`. */
  function SpaceRun(s: string): (n: nat)
    ensures n <= |s|
    ensures forall i :: 0 <= i < n ==> IsSpace(s[i])
    ensures n < |s| ==> !IsSpace(s[n])
  {
    if s == [] || !IsSpace(s[0]) then 0 else 1 + SpaceRun(s[1..])
  }

  /** Length of the non-whitespace run that starts `s`. */
  function WordRun(s: string): (n: nat)
    ensures n <= |s|
    ensures forall i :: 0 <= i < n ==> !IsSpace(s[i])
    ensures n < |s| ==> IsSpace(s[n])
  {
    if s == [] || IsSpace(s[0]) then 0 else 1 + WordRun(s[1..])
  }

  /**
    `s.split()`: leading whitespace is skipped, then a maximal run of
    non-whitespace characters is one word. No word is empty or holds whitespace.
   */
  function Words(s: string): (ws: seq<string>)
    ensures forall i :: 0 <= i < |ws| ==> ws[i] != [] && NoSpace(ws[i])
    decreases |s|
  {
    var t := s[SpaceRun(s)..];
    if t == [] then []
    else
      var n := WordRun(t);
      [t[..n]] + Words(t[n..])
  }

  /** `s[0]` is the last character of a word. */
  predicate EndsWord(s: string)
    requires s != []
  {
    !IsSpace(s[0]) && (|s| == 1 || IsSpace(s[1]))
  }

  /** Adding one character in front of `s` adds a word exactly when it closes one. */
  lemma {:induction false} WordsCons(s: string)
    requires s != []
    ensures |Words(s)| == |Words(s[1..])| + (if EndsWord(s) then 1 else 0)
  {
    var u := s[1..];
    if IsSpace(s[0]) {
      assert s[SpaceRun(s)..] == u[SpaceRun(u)..];
    } else {
      assert SpaceRun(s) == 0;
      var n := WordRun(s);
      if |s| == 1 || IsSpace(s[1]) {
        assert n == 1;
        assert s[n..] == u;
        assert Words(s) == [s[..n]] + Words(u);
      } else {
        assert SpaceRun(u) == 0;
        assert WordRun(u) == n - 1;
        assert u[n - 1..] == s[n..];
        assert Words(u) == [u[..n - 1]] + Words(s[n..]);
        assert Words(s) == [s[..n]] + Words(s[n..]);
      }
    }
  }

  /**
    `word_count` (agents/eval/run_eval.py): the number of tokens `split()`
    yields. The source also drops tokens whose `strip()` is empty, which never
    happens: every token is non-empty and whitespace-free.
   */
  function WordCount(s: string): (n: nat)
    ensures n == |Words(s)|
  {
    if s == [] then 0
    else
      WordsCons(s);
      WordCount(s[1..]) + (if EndsWord(s) then 1 else 0)
  }

  /** A string has no words exactly when it is all whitespace (the empty string included). */
  lemma {:induction false} WordCountZeroIffBlank(s: string)
    ensures WordCount(s) == 0 <==> AllSpace(s)
  {
    if s != [] {
      var u := s[1..];
      WordCountZeroIffBlank(u);
      assert AllSpace(s) <==> IsSpace(s[0]) && AllSpace(u) by {
        assert forall i :: 0 < i < |s| ==> s[i] == u[i - 1];
      }
      assert AllSpace(u) ==> (EndsWord(s) <==> !IsSpace(s[0])) by {
        if |s| > 1 { assert s[1] == u[0]; }
      }
    }
  }

  // ---------------------------------------------------------------------------
  // `needle in hay` for two strings

  predicate OccursAt(needle: string, hay: string, i: int) {
    0 <= i && i + |needle| <= |hay| && hay[i..i + |needle|] == needle
  }

  /** Python's `needle in hay` on strings: a contiguous, case-sensitive match. */
  predicate Substring(needle: string, hay: string) {
    exists i | 0 <= i <= |hay| :: OccursAt(needle, hay, i)
  }

  // ---------------------------------------------------------------------------
  // `str.lower()`

  function LowerChar(c: char): char {
    if 'A' <= c <= 'Z' then (c as int + 32) as char else c
  }

  /** `s.lower()` on ASCII letters; every other character is kept. */
  function Lower(s: string): (r: string)
    ensures |r| == |s|
    ensures forall i :: 0 <= i < |s| ==> r[i] == LowerChar(s[i])
  {
    seq(|s|, i requires 0 <= i < |s| => LowerChar(s[i]))
  }

  /** Lowering twice is lowering once. */
  lemma LowerIdempotent(s: string)
    ensures Lower(Lower(s)) == Lower(s)
  {
    assert forall i :: 0 <= i < |s| ==> LowerChar(LowerChar(s[i])) == LowerChar(s[i]);
  }

  /** The empty string is the only string found in the empty string. */
  lemma SubstringOfEmpty(needle: string)
    ensures Substring(needle, []) <==> needle == []
  {
    if needle == [] {
      assert OccursAt(needle, [], 0);
    }
  }

  // ---------------------------------------------------------------------------
  // `str.strip(chars)`

  /** Number of leading characters of `s` that belong to `cs`. */
  function LeadIn(s: string, cs: set<char>): (n: nat)
    ensures n <= |s|
    ensures forall k :: 0 <= k < n ==> s[k] in cs
    ensures n < |s| ==> s[n] !in cs
  {
    if s != [] && s[0] in cs then 1 + LeadIn(s[1..], cs) else 0
  }

  /** Number of trailing characters of `s` that belong to `cs`. */
  function TrailIn(s: string, cs: set<char>): (n: nat)
    ensures n <= |s|
    ensures forall k :: |s| - n <= k < |s| ==> s[k] in cs
    ensures n < |s| ==> s[|s| - 1 - n] !in cs
  {
    if s != [] && s[|s| - 1] in cs then 1 + TrailIn(s[..|s| - 1], cs) else 0
  }

  /**
    `s.strip(chars)`: the middle of `s` left after removing every leading and
    every trailing character in `cs`. What was removed lies wholly in `cs`, and
    what remains neither starts nor ends with a character in `cs`.
   */
  function Strip(s: string, cs: set<char>): (r: string)
    ensures |r| <= |s|
    ensures r == [] || (r[0] !in cs && r[|r| - 1] !in cs)
    ensures exists i :: StrippedAt(s, cs, r, i)
  {
    var a := LeadIn(s, cs);
    var t := s[a..];
    var b := TrailIn(t, cs);
    var r := t[..|t| - b];
    assert StrippedAt(s, cs, r, a);
    r
  }

  /** `r` sits at offset `i` of `s` and everything around it is in `cs`. */
  predicate StrippedAt(s: string, cs: set<char>, r: string, i: int) {
    && 0 <= i && i + |r| <= |s|
    && s[i..i + |r|] == r
    && (forall k :: 0 <= k < i ==> s[k] in cs)
    && (forall k :: i + |r| <= k < |s| ==> s[k] in cs)
  }

  /** Stripping leaves alone a string that neither starts nor ends with a stripped character. */
  lemma StripKeepsClean(s: string, cs: set<char>)
    requires s == [] || (s[0] !in cs && s[|s| - 1] !in cs)
    ensures Strip(s, cs) == s
  {
    var r := Strip(s, cs);
    var i :| StrippedAt(s, cs, r, i);
    if s != [] {
      assert i == 0;
      assert i + |r| == |s|;
    }
  }

  /** Stripping twice strips nothing more. */
  lemma StripIdempotent(s: string, cs: set<char>)
    ensures Strip(Strip(s, cs), cs) == Strip(s, cs)
  {
    StripKeepsClean(Strip(s, cs), cs);
  }
}

=== FILE: py_value.dfy ===
/**
  Python values as they reach the modelled code: the decoded JSON that an agent
  returns, or the document `yaml.safe_load` yields for the toolkit's config file.
  Python exceptions are explicit outcomes, so that a function which would raise
  in the source returns `Raised` here instead of being excluded by a precondition.
 */
module PyValue {

  datatype Option<+T> = None | Some(value: T) {
    function GetOr(default: T): T {
      match this
      case Some(v) => v
      case None => default
    }
  }

  /** A JSON-like value. Numbers are integers; objects have string keys. */
  datatype Json =
    | Null
    | Bool(b: bool)
    | Int(i: int)
    | Str(s: string)
    | Arr(items: seq<Json>)
    | Obj(fields: map<string, Json>)

  /** The two exceptions the modelled code can raise on ill-typed values. */
  datatype PyError = TypeError | AttributeError

  /** Either a value or the exception Python would raise. Usable with `:-`. */
  datatype Outcome<+T> = Ok(value: T) | Raised(error: PyError) {
    predicate IsFailure() {
      Raised?
    }

    function PropagateFailure<U>(): Outcome<U>
      requires Raised?
    {
      Raised(error)
    }

    function Extract(): T
      requires Ok?
    {
      value
    }
  }

  /** Python truthiness: `None`, `False`, `0`, `""`, `[]` and `{}` are false. */
  predicate Truthy(v: Json) {
    match v
    case Null => false
    case Bool(b) => b
    case Int(i) => i != 0
    case Str(s) => s != []
    case Arr(xs) => xs != []
    case Obj(m) => m != map[]
  }

  /** Lists and dicts cannot be hashed, so they cannot be looked up in a set. */
  predicate Hashable(v: Json) {
    !v.Arr? && !v.Obj?
  }

  function AsSet(xs: seq<string>): (r: set<string>)
    ensures forall x :: x in r <==> x in xs
  {
    set x | x in xs
  }

  /**
    `v in allowed` for a Python set of strings: hashing a list or a dict raises
    TypeError; no non-string value equals a string.
   */
  function InStrSet(v: Json, allowed: set<string>): (r: Outcome<bool>)
    ensures r.Raised? <==> !Hashable(v)
    ensures r == Raised(TypeError) || r == Ok(exists a :: a in allowed && v == Str(a))
  {
    match v
    case Arr(_) => Raised(TypeError)
    case Obj(_) => Raised(TypeError)
    case Str(s) => Ok(s in allowed)
    case _ => Ok(false)
  }

  /** `v.get(key, default)`: only a dict has a `get` method. */
  function Get(v: Json, key: string, default: Json): (r: Outcome<Json>)
    ensures r.Raised? <==> !v.Obj?
    ensures r.Raised? ==> r.error == AttributeError
    ensures r.Ok? && key in v.fields ==> r.value == v.fields[key]
    ensures r.Ok? && key !in v.fields ==> r.value == default
  {
    if !v.Obj? then Raised(AttributeError)
    else if key in v.fields then Ok(v.fields[key])
    else Ok(default)
  }
}

=== FILE: runtime_status.dfy ===
/**
  The tail of `main` in agents/upsert_runtime.py, after the runtime is
  launched: the script needs the agent ARN, polls the runtime status until it
  is terminal, and stores the ARN in a parameter only when the runtime is READY.
  The status each poll returns is an input sequence; the sleep between polls
  and the parameter-store write are left out.
 */
module RuntimeStatus {
  import opened PyValue

  const Ready := "READY"

  /** The statuses that end the polling loop. */
  const Terminal: set<string> := {"READY", "CREATE_FAILED", "DELETE_FAILED", "UPDATE_FAILED"}

  /** `status in terminal` for the status a poll returned; `None` is never terminal. */
  predicate IsTerminal(status: Option<string>) {
    status.Some? && status.value in Terminal
  }

  /** The index of the first terminal status, if any: where the loop stops. */
  function FirstTerminal(observed: seq<Option<string>>): (r: Option<nat>)
    ensures r.Some? ==> r.value < |observed| && IsTerminal(observed[r.value])
    ensures r.Some? ==> forall j :: 0 <= j < r.value ==> !IsTerminal(observed[j])
    ensures r.None? ==> forall j :: 0 <= j < |observed| ==> !IsTerminal(observed[j])
  {
    if observed == [] then None
    else if IsTerminal(observed[0]) then Some(0)
    else
      match FirstTerminal(observed[1..])
      case None => None
      case Some(i) => Some(i + 1)
  }

  /**
    The `while True` loop, over the statuses the successive polls return. It
    stops at the first terminal status; `None` means the loop is still polling
    after the last observed status.
   */
  method PollUntilTerminal(observed: seq<Option<string>>) returns (stop: Option<nat>)
    ensures stop == FirstTerminal(observed)
  {
    var i := 0;
    while i < |observed|
      invariant 0 <= i <= |observed|
      invariant forall j :: 0 <= j < i ==> !IsTerminal(observed[j])
    {
      if IsTerminal(observed[i]) {
        FirstTerminalIs(observed, i);
        return Some(i);
      }
      i := i + 1;
    }
    return None;
  }

  /** A terminal status preceded only by non-terminal ones is the first terminal status. */
  lemma {:induction false} FirstTerminalIs(observed: seq<Option<string>>, i: nat)
    requires i < |observed| && IsTerminal(observed[i])
    requires forall j :: 0 <= j < i ==> !IsTerminal(observed[j])
    ensures FirstTerminal(observed) == Some(i)
  {
    if i > 0 {
      var rest := observed[1..];
      assert rest[i - 1] == observed[i];
      assert forall j :: 0 <= j < i - 1 ==> rest[j] == observed[j + 1];
      FirstTerminalIs(rest, i - 1);
    }
  }

  /** How the script ends after the launch. */
  datatype Ending =
    | MissingArn                         // exit 4: the launch response had no ARN
    | StillPolling                       // no terminal status among the observed ones
    | NotReady(status: string)           // exit 2: a terminal status other than READY
    | Done(stored: Option<string>)       // exit 0; the ARN stored under this parameter, if any
  {
    function ExitCode(): Option<int> {
      match this
      case MissingArn => Some(4)
      case StillPolling => None
      case NotReady(_) => Some(2)
      case Done(_) => Some(0)
    }
  }

  /**
    `if not agent_arn: sys.exit(4)`, the polling loop, `if status != "READY":
    sys.exit(2)`, and `if args.ssm_param:` the write of the ARN.
   */
  method Conclude(agentArn: Option<string>, observed: seq<Option<string>>, ssmParam: string)
    returns (e: Ending)
    ensures (agentArn.None? || agentArn.value == []) <==> e == MissingArn
    ensures e.StillPolling? <==> e != MissingArn && FirstTerminal(observed).None?
    ensures e.NotReady? ==>
      && e.status in Terminal && e.status != Ready
      && observed[FirstTerminal(observed).value] == Some(e.status)
    ensures e.Done? <==>
      && e != MissingArn && FirstTerminal(observed).Some?
      && observed[FirstTerminal(observed).value] == Some(Ready)
    ensures e.Done? ==> (e.stored.Some? <==> ssmParam != []) && (e.stored.Some? ==> e.stored.value == ssmParam)
    ensures e.ExitCode() == Some(4) <==> agentArn.None? || agentArn.value == []
    ensures e.ExitCode() == Some(2) <==>
      && !(agentArn.None? || agentArn.value == []) && FirstTerminal(observed).Some?
      && observed[FirstTerminal(observed).value] != Some(Ready)
    ensures e.ExitCode() == Some(0) <==> e.Done?
    ensures e.ExitCode().None? <==> e.StillPolling?
  {
    if agentArn.None? || agentArn.value == [] {
      return MissingArn;
    }
    var stop := PollUntilTerminal(observed);
    if stop.None? {
      return StillPolling;
    }
    var status := observed[stop.value].value;
    if status != Ready {
      return NotReady(status);
    }
    if ssmParam != [] {
      return Done(Some(ssmParam));
    }
    return Done(None);
  }
}

=== FILE: toolkit_config.dfy ===
/**
  `_scrub_yaml_ids` of agents/upsert_runtime.py: before launching, the deploy
  script rewrites the toolkit's `.bedrock_agentcore.yaml` so that the agent name
  is the one requested and no cached runtime identifier survives.
 */
module ToolkitConfig {
  import opened PyValue

  /** The keys that are forced to the desired agent name. */
  const NameKeys: set<string> := {"name", "agentName", "agent_name"}

  /** The cached identifiers dropped from the top level. */
  const CachedIdKeys: set<string> :=
    {"endpointArn", "endpoint_arn", "runtimeArn", "runtime_arn", "runtimeId", "agentId", "agent_id"}

  /** The volatile fields dropped from a nested `endpoint` map. */
  const VolatileEndpointKeys: set<string> := {"arn", "endpointArn", "endpoint_arn", "status"}

  const EndpointKey := "endpoint"

  /** A key the scrubber neither sets, drops nor descends into. */
  predicate Untouched(k: string) {
    k !in NameKeys && k !in CachedIdKeys && k != EndpointKey
  }

  /** The name keys set, the cached identifiers dropped; the `endpoint` block is handled apart. */
  function Renamed(data: map<string, Json>, desired: string): map<string, Json> {
    (data + map k | k in NameKeys :: Str(desired)) - CachedIdKeys
  }

  /**
    The map transformation of `_scrub_yaml_ids`, without the file read and
    write. The name keys hold the desired name, no cached identifier is left,
    a map-valued `endpoint` loses its volatile fields and is dropped when
    nothing else is left in it, and everything else is kept as it was.
   */
  function ScrubIds(data: map<string, Json>, desired: string): (r: map<string, Json>)
    ensures forall k :: k in NameKeys ==> k in r && r[k] == Str(desired)
    ensures forall k :: k in CachedIdKeys ==> k !in r
    ensures forall k | Untouched(k) :: (k in r <==> k in data) && (k in data ==> r[k] == data[k])
    ensures EndpointKey in data && data[EndpointKey].Obj? ==>
      var kept := data[EndpointKey].fields - VolatileEndpointKeys;
      && (EndpointKey in r <==> kept != map[])
      && (EndpointKey in r ==> r[EndpointKey] == Obj(kept))
    ensures !(EndpointKey in data && data[EndpointKey].Obj?) ==>
      (EndpointKey in r <==> EndpointKey in data)
      && (EndpointKey in data ==> r[EndpointKey] == data[EndpointKey])
  {
    assert EndpointKey !in NameKeys && EndpointKey !in CachedIdKeys;
    var named := Renamed(data, desired);
    if EndpointKey in named && named[EndpointKey].Obj? then
      var ep := named[EndpointKey].fields - VolatileEndpointKeys;
      if ep == map[] then named - {EndpointKey} else named[EndpointKey := Obj(ep)]
    else named
  }

  /** Scrubbing an already-scrubbed map changes nothing. */
  lemma ScrubIdempotent(data: map<string, Json>, desired: string)
    ensures ScrubIds(ScrubIds(data, desired), desired) == ScrubIds(data, desired)
  {
    var r := ScrubIds(data, desired);
    var rr := ScrubIds(r, desired);
    assert EndpointKey !in NameKeys && EndpointKey !in CachedIdKeys;
    if EndpointKey in r {
      if r[EndpointKey].Obj? {
        assert Renamed(r, desired)[EndpointKey] == r[EndpointKey];
        var ep := r[EndpointKey].fields;
        assert ep - VolatileEndpointKeys == ep;
        assert ep != map[];
      }
    }
    assert rr.Keys == r.Keys;
  }

  // ---------------------------------------------------------------------------
  // The file around the map

  /** What the config file holds: nothing, text the YAML loader rejects, or a document. */
  datatype ConfigFile = Absent | Unloadable | Loaded(doc: Json)

  /** What the scrubber leaves: the file untouched, a caught failure (nothing written), or the new content. */
  datatype ScrubResult = NotPresent | Failed | Written(data: map<string, Json>)

  /**
    `_scrub_yaml_ids`: an empty or null document counts as `{}`; a non-empty
    document that is not a mapping fails on the first item assignment, and the
    failure is caught, so the file is not rewritten.
   */
  function ScrubYaml(file: ConfigFile, desired: string): (r: ScrubResult)
    ensures file.Absent? <==> r.NotPresent?
    ensures r.Failed? <==> file.Unloadable? || (file.Loaded? && Truthy(file.doc) && !file.doc.Obj?)
    ensures file.Loaded? && file.doc.Obj? ==> r == Written(ScrubIds(file.doc.fields, desired))
  {
    match file
    case Absent => NotPresent
    case Unloadable => Failed
    case Loaded(doc) =>
      if !Truthy(doc) then Written(ScrubIds(map[], desired))
      else if doc.Obj? then Written(ScrubIds(doc.fields, desired))
      else Failed
  }

  /** A null or otherwise empty document becomes exactly the three name keys. */
  lemma EmptyDocumentGetsNames(doc: Json, desired: string)
    requires !Truthy(doc)
    ensures var r := ScrubYaml(Loaded(doc), desired);
      && r.Written?
      && r.data.Keys == NameKeys
      && forall k :: k in r.data ==> r.data[k] == Str(desired)
  {
    var e: map<string, Json> := map[];
    assert EndpointKey !in Renamed(e, desired);
  }
}
